=== FILE: README.md ===
# Soccer clip detector — geometric post-processing and recording-screen decisions

This project models the decision logic of a football-clip app in Dafny.

The app has two parts:

- **The detector** (`ai_model/soccer_detector.py`). It turns raw object-detector and line/contour outputs into balls, goals, a ball trajectory and a collision verdict.
- **The recording screen** (`screens/RecordScreen.tsx`). It decides, from each detection message, whether the ball touches the hand-annotated goal and whether to start a recording.

The model covers the detector's post-processing:

- the intersection-over-union of two boxes;
- goal deduplication: a stable sort by confidence, greedy suppression at IoU > 0.5, and a cap of three;
- the two ball filters, and why the fallback of the second one can never fire;
- the line-pair and corner-quadruple rectangle builders;
- the first-match contour test;
- goal fusion;
- the two-post goal area;
- the finite-difference trajectory;
- the collision classifier, as shipped and with the goals it scans as a parameter;
- the bounded ball history of `process_frame`.

It also covers the screen, written as pure transitions over an explicit state record:

- the ball-validity filter;
- the rectangle overlap test;
- the bounding rectangle of the annotation;
- the edge-triggered recording trigger with its 3-second cooldown;
- the four-tap goal annotation;
- the 1-second hold of the "football detected" indicator.

Modules, one per file:

- `Wrappers`: `Option`.
- `Geometry`: boxes and IoU.
- `Detections`: the detection record.
- `Ranking`: stable descending sort, truncation, first arg-max, subsequences.
- `Combinations`: the index quadruples of four nested loops.
- `GoalFusion`: goal deduplication.
- `BallFilter`: the two ball filters and `detect_objects`.
- `GoalGenerators`: the rectangle builders, the contour test, goal fusion and `detect_rectangular_goal`.
- `Trajectory`: the finite-difference trajectory.
- `Collision`: the collision classifier.
- `FramePipeline`: one call of `process_frame`.
- `ClientGeometry`: the screen's rectangle helpers.
- `RecordScreen`: the screen's state and handlers.

Distances in the collision classifier are kept squared. The detector only compares non-negative distances, so in exact arithmetic comparing their squares decides every comparison the same way. The reported distance is therefore the square of the detector's distance. The trajectory's speed is likewise kept as the squared norm of the last velocity.

## Model

| member | source | states |
|---|---|---|
| Geometry.CalculateOverlap | ai_model/soccer_detector.py:325-344 | IoU lies in [0, 1], and it is positive exactly when both boxes are proper and their interiors meet. |
| Geometry.OverlapSymmetric | ai_model/soccer_detector.py:325-344 | IoU does not depend on argument order. |
| Geometry.OverlapIsOneIff | ai_model/soccer_detector.py:325-344 | IoU is 1 exactly for a proper box against itself. |
| Geometry.DisjointHasZeroOverlap | ai_model/soccer_detector.py:334-335 | Boxes separated or merely touching on either axis have IoU 0. |
| Detections.ClassLabel | ai_model/soccer_detector.py:30-36 | The label is "person" exactly for class 0, "sports ball" exactly for class 32 and "frisbee" exactly for class 37; every other id is reported as that id, as the `.get` default gives `class_<id>`. |
| GoalFusion.FilterGoalDetectionsSeparated | ai_model/soccer_detector.py:304-323 | The result is empty exactly for empty input, holds at most 3 goals, and no two kept goals overlap by more than 0.5. |
| GoalFusion.FilterGoalDetectionsOrder | ai_model/soccer_detector.py:304-323 | The kept goals are a subsequence of the stably confidence-sorted input, in non-increasing confidence, each taken from the input. |
| GoalFusion.FilterGoalDetectionsLeader | ai_model/soccer_detector.py:308-319 | For non-empty input the first kept goal has the highest confidence of all candidates. |
| GoalFusion.SuppressionIsMaximal | ai_model/soccer_detector.py:311-319 | Before the cap, every dropped candidate overlaps a kept goal by more than 0.5. |
| GoalFusion.SuppressFacts | ai_model/soccer_detector.py:311-319 | Suppression extends the kept list by a subsequence of its input, keeps it separated, and keeps or covers every candidate. |
| BallFilter.YoloBalls | ai_model/soccer_detector.py:462-473 | A detection is a model ball exactly when its proposal has class 32, confidence > 0.3, aspect in (0.5, 2.5), area in (300, 10000) and both sides > 15. A zero-height candidate is accepted as input and is not a ball, as the float32 aspect is then infinite or NaN. Every ball has a non-zero height. |
| BallFilter.YoloDetect | ai_model/soccer_detector.py:434-479 | Every proposal becomes a detection with its box and confidence; every ball is a class-32 detection above 0.3; no goals. |
| BallFilter.ValidBalls | ai_model/soccer_detector.py:649-665 | A ball is kept exactly when it passes the stricter test, which adds sides < 300. |
| BallFilter.ValidBallsOrder | ai_model/soccer_detector.py:649-665 | The valid balls are the input with the invalid balls deleted: a subsequence of it, and each valid ball occurs as often as in the input. |
| BallFilter.FilterDuplicateBallsFallback | ai_model/soccer_detector.py:646-668 | Empty input gives empty output; if no ball passes the test, the input comes back unchanged. |
| BallFilter.FilterDuplicateBallsRanked | ai_model/soccer_detector.py:667-672 | If some ball passes, the result holds min(3, number of passing balls) balls, drawn from the passing balls without repetition, in non-increasing confidence, and every omitted passing ball is no more confident than the last one kept. |
| BallFilter.YoloShapeBoundsSides | ai_model/soccer_detector.py:466-473 | Aspect in (0.5, 2.5) and area below 10000 force both sides below 300. |
| BallFilter.DetectObjectsNeverFallsBack | ai_model/soccer_detector.py:404-421 | Every model ball passes the stricter test, so the fallback never fires: the balls of `detect_objects` are the three most confident model balls, all valid, and there are no goals. |
| GoalGenerators.TryFormRectangle | ai_model/soccer_detector.py:233-258 | A formed rectangle has 50 < w < 0.8·frame width and 30 < h < 0.8·frame height, confidence 0.7, its own centre, and corners TL, TR, BR, BL of its box. |
| GoalGenerators.TryFormRectangleBox | ai_model/soccer_detector.py:233-258 | A rectangle is formed exactly when the bounding box of the four segment endpoints has a plausible size, and the rectangle's box is that bounding box. |
| GoalGenerators.AnalyzeLinesMembers | ai_model/soccer_detector.py:223-231 | The rectangles are exactly those formed from a vertical and a horizontal segment both longer than 30; there are at most \|vertical\|·\|horizontal\| of them. |
| GoalGenerators.AnalyzeLinesShape | ai_model/soccer_detector.py:205-258 | Every line-pair rectangle has a plausible size, confidence 0.7 and clockwise corners. |
| GoalGenerators.CheckFourPointsRectangle | ai_model/soccer_detector.py:278-302 | Not exactly four points gives nothing; a formed rectangle has a plausible size, confidence 0.6, its own centre, and the four points as corners. |
| GoalGenerators.CheckFourPointsBox | ai_model/soccer_detector.py:278-302 | For four points a rectangle is formed exactly when the points' bounding box has a plausible size, and its box is that bounding box. |
| GoalGenerators.FindRectanglesCount | ai_model/soccer_detector.py:260-276 | Fewer than four corners give nothing, and n corners give at most C(n, 4) rectangles. |
| GoalGenerators.FindRectanglesSound | ai_model/soccer_detector.py:260-302 | Every corner rectangle has a plausible size and confidence 0.6, and its corners are four input points at strictly increasing indices, whose bounding box it is. |
| GoalGenerators.FindRectanglesComplete | ai_model/soccer_detector.py:265-274 | Every increasing index quadruple whose points pass the check contributes its rectangle. |
| Combinations.CombosMembers | ai_model/soccer_detector.py:265-269 | The nested loops visit exactly the strictly increasing index quadruples. |
| Combinations.CombosDistinct | ai_model/soccer_detector.py:265-269 | No quadruple is visited twice. |
| Combinations.QuadrupleCount | ai_model/soccer_detector.py:265-269 | There are C(n, 4) quadruples. |
| Combinations.ChooseFour | ai_model/soccer_detector.py:265-269 | 24·C(n, 4) = n(n−1)(n−2)(n−3). |
| GoalGenerators.DetectGoalByContoursFast | ai_model/soccer_detector.py:381-402 | At most one goal, labelled goal and tagged as a contour detection. |
| GoalGenerators.ContoursFirstMatch | ai_model/soccer_detector.py:381-402 | A goal comes out exactly when some contour is accepted, built from the first accepted one; its confidence min(0.8, area/15000) lies in (1/15, 0.8]. |
| GoalGenerators.ContourGoal | ai_model/soccer_detector.py:393-400 | An accepted contour becomes a goal whose box is its bounding rectangle and whose centre is the box centre. |
| GoalGenerators.EdgeGoals | ai_model/soccer_detector.py:356-366 | Each line-pair rectangle becomes, in order, a goal detection with its box and confidence, tagged as an edge detection. |
| GoalGenerators.DetectGoalAdvancedFacts | ai_model/soccer_detector.py:101-114 | Fused goals are at most three, separated, in non-increasing confidence, all goals, and an edge goal has confidence 0.7. |
| GoalGenerators.DetectRectangularGoal | ai_model/soccer_detector.py:491-492 | No goal area exactly when fewer than two posts. |
| GoalGenerators.DetectRectangularGoalPosts | ai_model/soccer_detector.py:494-498 | The two posts are input posts with the smallest and the largest centre x. |
| GoalGenerators.DetectRectangularGoalTies | ai_model/soccer_detector.py:494-498 | Among posts with equal centre x, the stable sort makes the first such post the left one and the last such post the right one. |
| GoalGenerators.DetectRectangularGoalShape | ai_model/soccer_detector.py:500-523 | The area spans the left post's left edge to the right post's right edge and down to the lower post bottom. Its height is 1.1 times the posts' vertical extent, so a band a tenth of that extent above the higher post top is left for the crossbar, and the area holds both posts vertically. Its recorded width, height and centre are those of its box, and its confidence is the lower of the two. |
| Trajectory.CalculateBallTrajectory | ai_model/soccer_detector.py:536-555 | No trajectory exactly for fewer than 3 entries; otherwise n positions equal to the centres, n−1 velocities and n−2 accelerations. |
| Trajectory.TrajectoryParts | ai_model/soccer_detector.py:541-555 | Stated without division: each velocity held over its time step carries the ball's centre to the next centre, each acceleration held over the later step carries one velocity to the next, and the speed is the last velocity's norm (squared). |
| Trajectory.VelocitiesTimesSteps | ai_model/soccer_detector.py:541-545 | Each velocity times its time step is the displacement over that step, with a missing timestamp read as the entry's index. |
| Trajectory.AccelerationsTimesSteps | ai_model/soccer_detector.py:547-548 | Each acceleration times the later of its two time steps is the change of velocity. |
| Trajectory.UniformMotion | ai_model/soccer_detector.py:541-548 | A ball moving at constant velocity v has every velocity equal to v and every acceleration zero. |
| Collision.CollisionWith | ai_model/soccer_detector.py:576-640 | No collision when balls, goals or scanned goals are empty, or no ball is above 0.95. A reported ball is an input ball above 0.95, and a reported goal is a scanned goal. |
| Collision.CheckBallGoalCollision | ai_model/soccer_detector.py:557-640 | As shipped, the scanned goals are the empty list, so the result is always the no-collision record with infinite distance. |
| Collision.IsGoalScoringMoment | ai_model/soccer_detector.py:674-679 | Never a goal-scoring moment. |
| Collision.CollisionIff | ai_model/soccer_detector.py:581-640 | Over given goals, a collision is reported exactly when some ball above 0.95 has its centre inside some goal box, or is within the threshold max(5, 0.3·radius) of the goal box and nearer than 20 pixels. |
| Collision.CollisionChoice | ai_model/soccer_detector.py:591-640 | A reported goal has the ball centre inside the goal box at distance 0. A reported contact has no confident ball inside any goal, and its pair qualifies, is nearer than 20 and is nearest among all qualifying pairs. |
| Collision.ScanScored | ai_model/soccer_detector.py:591-610 | The scan stops at the first ball-major pair with the ball inside its goal, whatever it collected before. |
| Collision.ScanNearest | ai_model/soccer_detector.py:612-629 | Without inside pairs, the scan keeps the qualifying pair of least distance, the first one on ties, unless its starting candidate is at least as near. |
| Collision.PairsMembers | ai_model/soccer_detector.py:591-596 | The nested loops visit exactly the ball/goal combinations. |
| Collision.ContactAtThreshold | ai_model/soccer_detector.py:612-637 | A 20-pixel ball whose centre is 5 pixels from the goal edge is in contact at squared distance 25: the 5-pixel floor is inclusive. |
| FramePipeline.Stamped | ai_model/soccer_detector.py:718-720 | The appended ball is the first input ball of maximal confidence, as Python's `max` picks among ties, with its timestamp set to the current time. |
| FramePipeline.UpdateHistory | ai_model/soccer_detector.py:716-725 | Without balls the history is unchanged; otherwise it grows by one until 30 entries, ends with the stamped best ball, and a history of at most 30 stays so. |
| FramePipeline.UpdateHistoryKeepsOrder | ai_model/soccer_detector.py:716-725 | The new history is the old one plus the best ball, less at most the oldest entry, which is dropped only at 30. |
| FramePipeline.ReplayIsWindow | ai_model/soccer_detector.py:716-725 | Over any run of frames from a history of at most 30, the history is the last 30 of the old entries followed by each frame's best ball. |
| FramePipeline.ReplayBounded | ai_model/soccer_detector.py:723-725 | A history of at most 30 entries stays at most 30 over any run. |
| FramePipeline.ProcessFrame | ai_model/soccer_detector.py:681-770 | The collision record is always "no collision" and the frame is never a goal moment. The detections are those of `detect_objects` on this frame. Without balls the history is unchanged; otherwise its last entry is this frame's stamped best ball, it grows by at most one and stays within 30. The trajectory is absent exactly for fewer than 3 entries. |
| ClientGeometry.OverlapSymmetric | screens/RecordScreen.tsx:44-53 | The overlap test does not depend on argument order. |
| ClientGeometry.OverlapIffCommonPoint | screens/RecordScreen.tsx:44-53 | For upright rectangles the test holds exactly when the closed rectangles share a point, so touching counts as overlap. |
| ClientGeometry.CornerContactOverlaps | screens/RecordScreen.tsx:44-53 | Squares sharing only a corner overlap; squares separated by a gap do not. |
| ClientGeometry.GetBoundingRect | screens/RecordScreen.tsx:56-66 | For a non-empty polygon the rectangle is upright, contains every point, and each side is attained by some point. |
| ClientGeometry.BoundingRectSmallest | screens/RecordScreen.tsx:56-66 | Every rectangle holding all points holds the bounding rectangle. |
| RecordScreen.ValidBalls | screens/RecordScreen.tsx:531-541 | A ball is kept exactly when it has a box of at least 4 numbers, confidence > 0.15, aspect in (0.3, 3), area in (100, 100000) and both sides > 10. |
| RecordScreen.ValidCountMatches | screens/RecordScreen.tsx:506-518 | The count computed with the duplicated test equals the number of valid balls. |
| RecordScreen.FirstValidBall | screens/RecordScreen.tsx:531-557 | The ball the overlap test uses is the first ball of the message that passes the test. |
| RecordScreen.MaxConfidence | screens/RecordScreen.tsx:545-546 | The reported confidence is the largest confidence among valid balls and belongs to one of them. |
| RecordScreen.BallRect | screens/RecordScreen.tsx:561-596 | The ball rectangle is the raw box scaled by screen width over frame width and by view height (screen less the 83-point tab bar) over frame height. The normalisation branch does not affect it. |
| RecordScreen.UpdateDetectionStatus | screens/RecordScreen.tsx:302-340 | A detection turns the status on with its confidence and time and arms the timer. A miss clears it only when at least 1000 ms have passed since the last change, and otherwise leaves it unchanged. Nothing else changes. |
| RecordScreen.DetectionTimerFired | screens/RecordScreen.tsx:318-326 | The timer turns the status off (no football, confidence 0, same time) exactly when the status still carries the time of the detection that armed it, and otherwise leaves it unchanged; it disarms itself and nothing else changes. |
| RecordScreen.MissIdempotent | screens/RecordScreen.tsx:524-527 | Two misses at the same instant act as one, so the double update on an empty message is harmless. |
| RecordScreen.HoldKeepsGreen | screens/RecordScreen.tsx:327-339 | Within 1000 ms of the last change, no message turns a green status off. |
| RecordScreen.OverlapStep | screens/RecordScreen.tsx:613-638 | A false-to-true edge raises the banner. It starts a recording exactly when more than 3000 ms have passed since the last trigger and nothing is recording. The cooldown mark moves only then. |
| RecordScreen.OnMessage | screens/RecordScreen.tsx:476-649 | Messages that are not successful detections leave the state unchanged and ask for nothing. |
| RecordScreen.TriggerIff | screens/RecordScreen.tsx:544-638 | A message starts a recording exactly when its overlap test passes, the previous one did not, the cooldown has passed and nothing is recording. The cooldown mark changes only then, and the flag records this message's overlap. |
| RecordScreen.NoRetrigger | screens/RecordScreen.tsx:615-638 | A message following an overlapping message never starts a recording. |
| RecordScreen.RunSpacesTriggers | screens/RecordScreen.tsx:621-630 | Over any run of events, consecutive recording starts are more than 3000 ms apart, and the cooldown mark is the last start. |
| RecordScreen.StepCooldown | screens/RecordScreen.tsx:621-630 | One event moves the cooldown mark exactly when it starts a recording, and only after the cooldown. |
| RecordScreen.OnMessageKeepsRest | screens/RecordScreen.tsx:476-649 | A message never changes the annotation, the stored goal area or the recording state. |
| RecordScreen.HandleGoalAnnotation | screens/RecordScreen.tsx:343-384 | Outside annotation mode a tap changes nothing. Otherwise it appends exactly one point, and the fourth point stores the goal area and ends annotation. |
| RecordScreen.Coordinate | screens/RecordScreen.tsx:358-359 | The page coordinate is used unless absent or 0, then the location coordinate, then 100. |
| RecordScreen.StartGoalAnnotation | screens/RecordScreen.tsx:386-402 | Annotation starts with no points and no stored goal, and nothing else changes. |
| RecordScreen.ClearGoalAnnotation | screens/RecordScreen.tsx:404-412 | The goal, the points and the overlap flags are cleared, and no other field changes: recording, cooldown, status and balls stay as they were. |
| RecordScreen.FourTapsStoreGoal | screens/RecordScreen.tsx:343-402 | Four taps after starting an annotation store exactly their four points and end annotation. |
| RecordScreen.StepKeepsAnnotation | screens/RecordScreen.tsx:343-412 | Every event keeps the annotation consistent: fewer than four points while annotating, and exactly four in a stored goal. |
| RecordScreen.RunKeepsAnnotation | screens/RecordScreen.tsx:550 | From a consistent state, over any run, a stored goal always has four points. |
| RecordScreen.RunFromInitialKeepsAnnotation | screens/RecordScreen.tsx:550 | From mounting on, over any run, a stored goal always has four points, so the overlap test's length check always passes. |

## Left out

- Model inference and image processing are not modelled: the YOLO call, colour masks, Canny/Hough, adaptive thresholds, `findContours`, `approxPolyDP` and `goodFeaturesToTrack`. Their outputs are inputs to the model: proposals, classified segments, corner points and contour summaries.
- The angle classification of Hough segments with `arctan2` is left out because it needs trigonometry. A segment arrives tagged horizontal, vertical or oblique, with its length.
- Square roots are left out. Distances and the speed are kept squared.
- `_detect_goal_by_edges`, `_detect_goal_by_contours`, `_detect_goal_by_corners` and `detect_ball_by_color` are left out: `detect_goal_advanced` and `detect_objects` do not call them. Their rectangle helpers (`_find_rectangles_from_corners`, `_check_four_points_rectangle`) are modelled.
- Trajectory.CalculateBallTrajectory requires consecutive times to differ. numpy would divide by a zero time step and produce infinities or NaN, which reals cannot express.
- Trajectory.CalculateBallTrajectory does not model the `[[0, 0]]` acceleration branch and the zero speed of an empty velocity list. At three or more entries there are always at least two velocities, so neither can happen.
- BallFilter.FilterDuplicateBalls requires non-zero heights. Its boxes hold Python floats, so Python would raise ZeroDivisionError there. Through `detect_objects` it only receives model balls, whose sides exceed 15.
- Floating point is not modelled. IoU, aspect ratios, areas, velocities and squared distances are exact reals, where the source computes in float32 (YOLO boxes), float64 and JavaScript doubles. A comparison exactly at a threshold can therefore come out differently under rounding.
- ClientGeometry.GetBoundingRect returns `None` for an empty polygon. JavaScript returns the inverted rectangle of infinities there, which reals cannot express. The screen only computes it for a stored goal of four points.
- GoalGenerators.DetectGoalByContoursFast requires non-zero contour heights for contours reaching the aspect test. Python would raise there.
- GoalGenerators.Pick returns a placeholder point for an out-of-range index. The loops only visit in-range quadruples, so the placeholder is never used.
- FramePipeline.ProcessFrame requires the updated history to have distinct consecutive times, for the same reason as the trajectory.
- FramePipeline.ProcessFrame does not model aliasing. Python stamps the chosen ball's dict in place, so the same ball in the returned detection lists also carries the timestamp. The model stamps only the history entry.
- The unused frame buffer and the `None` clip information of `process_frame` are not modelled. The clock is the `now` parameter.
- `draw_detections`, `create_soccer_training_data` and the whole backend are left out. The backend is FastAPI and WebSocket plumbing, image coding, and process-wide history globals shared across connections, which is a concurrency concern.
- React's asynchronous state updates and the stale closures of the WebSocket handler are not modelled. Handlers read the current state. `Date.now()` in `updateDetectionStatus` is the message time.
- Timers, alerts, the camera API, WebSocket connection and reconnection, and rendering are not modelled. The detection timer, the banner timer and recording start/stop are events of the run.
- `shouldShowAlert` is not modelled. It is only ever set to false, so the alert effect it guards never fires.
- RecordScreen.ScaleX and RecordScreen.ScaleY require a known frame size with non-zero sides. JavaScript would scale by infinity.
- RecordScreen.OnMessage treats message parsing abstractly: a message is non-text, non-JSON, missing `success`, failed, or a detection message with its balls.

=== FILE: ball_filter.dfy ===
/** Ball proposal filtering in ai_model/soccer_detector.py: the per-proposal
    test at the end of `_yolo_detect`, the stricter re-validation with
    fallback in `_filter_duplicate_balls`, and their composition in
    `detect_objects`. The model call itself is outside the model: its output
    arrives as a sequence of proposals. */
module BallFilter {
  import opened Wrappers
  import opened Geometry
  import opened Detections
  import opened Ranking

  /** One raw model output `(box, conf, cls)`. */
  datatype Proposal = Proposal(box: Box, confidence: real, classId: int)

  /** Minimum confidence of a ball, in both filters. */
  const BallMinConfidence: real := 0.3

  /** At most this many balls leave `_filter_duplicate_balls`. */
  const MaxBalls: nat := 3

  /** The detection record `_yolo_detect` builds for every proposal. */
  function ToDetection(p: Proposal): Detection {
    Detection(p.box, p.confidence, ClassLabel(p.classId), p.box.Center(), Yolo, [], None)
  }

  /** The proposal reaches the shape checks: class 32 with confidence > 0.3. */
  predicate IsBallCandidate(p: Proposal) {
    p.classId == SportsBallClassId && p.confidence > BallMinConfidence
  }

  /** The shape checks of `_yolo_detect`: aspect in (0.5, 2.5), area in
      (300, 10000), both sides above 15. The box values there are float32,
      so a zero height makes the aspect infinite or NaN, which fails every
      comparison; testing the sides first gives the same answer without
      dividing by zero. */
  predicate YoloBallShape(b: Box) {
    && b.Width() > 15.0 && b.Height() > 15.0
    && 0.5 < b.Width() / b.Height() < 2.5
    && 300.0 < b.Width() * b.Height() < 10000.0
  }

  /** `_yolo_detect` appends the proposal's detection to `soccer_balls`. */
  predicate IsYoloBall(p: Proposal) {
    IsBallCandidate(p) && YoloBallShape(p.box)
  }

  /** The ball list of `_yolo_detect`, in proposal order. */
  function YoloBalls(ps: seq<Proposal>): (r: seq<Detection>)
    ensures forall d :: d in r <==> exists i :: 0 <= i < |ps| && IsYoloBall(ps[i]) && d == ToDetection(ps[i])
    ensures |r| <= |ps|
    ensures AllHeightsNonZero(r)
  {
    if |ps| == 0 then []
    else
      var rest := YoloBalls(ps[1..]);
      assert forall i :: 0 < i < |ps| ==> ps[i] == ps[1..][i - 1];
      if IsYoloBall(ps[0]) then [ToDetection(ps[0])] + rest else rest
  }

  /** Everything `_yolo_detect` returns; `goal_areas` is always empty. */
  datatype YoloResult = YoloResult(detections: seq<Detection>, soccerBalls: seq<Detection>, goalAreas: seq<Detection>)

  /** The post-processing of `_yolo_detect`: every proposal becomes a
      detection, and the ball candidates with a plausible shape become balls. */
  function YoloDetect(ps: seq<Proposal>): (r: YoloResult)
    ensures |r.detections| == |ps|
    ensures forall i :: 0 <= i < |ps| ==> r.detections[i].box == ps[i].box && r.detections[i].confidence == ps[i].confidence
    ensures forall d :: d in r.soccerBalls ==> d.className == SportsBall && d.confidence > BallMinConfidence && d in r.detections
    ensures r.goalAreas == []
  {
    YoloResult(seq(|ps|, i requires 0 <= i < |ps| => ToDetection(ps[i])), YoloBalls(ps), [])
  }

  ghost predicate AllHeightsNonZero(balls: seq<Detection>) {
    forall d :: d in balls ==> d.box.Height() != 0.0
  }

  /** The validity test of `_filter_duplicate_balls`: confidence > 0.3,
      aspect in (0.5, 2.5), area in (300, 10000), both sides in (15, 300). */
  predicate IsStrictBall(d: Detection)
    requires d.box.Height() != 0.0
  {
    && d.confidence > BallMinConfidence
    && YoloBallShape(d.box)
    && d.box.Width() < 300.0 && d.box.Height() < 300.0
  }

  /** The balls passing the validity test, in input order. */
  function ValidBalls(balls: seq<Detection>): (r: seq<Detection>)
    requires AllHeightsNonZero(balls)
    ensures forall d :: d in r <==> d in balls && IsStrictBall(d)
    ensures AllHeightsNonZero(r)
  {
    if |balls| == 0 then []
    else
      var rest := ValidBalls(balls[1..]);
      assert AllHeightsNonZero(balls[1..]);
      if IsStrictBall(balls[0]) then [balls[0]] + rest else rest
  }

  /** The valid balls keep their input order and multiplicity: deleting the
      invalid ones from the input gives them, which is what the stable sort
      then breaks confidence ties by. */
  lemma {:induction false} ValidBallsOrder(balls: seq<Detection>)
    requires AllHeightsNonZero(balls)
    ensures IsSubsequence(ValidBalls(balls), balls)
    ensures forall i :: 0 <= i < |balls| && IsStrictBall(balls[i]) ==>
      multiset(ValidBalls(balls))[balls[i]] == multiset(balls)[balls[i]]
  {
    if |balls| == 0 {
      EmptySubsequence(balls);
    } else {
      var tail := balls[1..];
      assert AllHeightsNonZero(tail);
      ValidBallsOrder(tail);
      var rest := ValidBalls(tail);
      SubsequenceCons(rest, balls);
      assert balls == [balls[0]] + tail;
      forall i | 0 <= i < |balls| && IsStrictBall(balls[i])
        ensures multiset(ValidBalls(balls))[balls[i]] == multiset(balls)[balls[i]]
      {
        var x := balls[i];
        if x == balls[0] {
          if i > 0 {
            assert tail[i - 1] == x;
          }
          if x in tail {
            var j :| 0 <= j < |tail| && tail[j] == x;
            assert multiset(rest)[x] == multiset(tail)[x];
          } else {
            assert x !in rest;
          }
        } else {
          assert tail[i - 1] == x;
          assert multiset(rest)[x] == multiset(tail)[x];
        }
      }
    }
  }

  /** `_filter_duplicate_balls`: the three most confident valid balls, or the
      input unchanged when none is valid. */
  function FilterDuplicateBalls(balls: seq<Detection>): (r: seq<Detection>)
    requires AllHeightsNonZero(balls)
    ensures forall d :: d in r ==> d in balls
  {
    if |balls| == 0 then []
    else
      var valid := ValidBalls(balls);
      if |valid| == 0 then balls
      else
        SortDescElements(valid, Conf);
        TakeIsSubsequence(SortDesc(valid, Conf), MaxBalls);
        SubsequenceElements(Take(SortDesc(valid, Conf), MaxBalls), SortDesc(valid, Conf));
        Take(SortDesc(valid, Conf), MaxBalls)
  }

  /** The sides of a box with the shape `_yolo_detect` accepts are below
      300: the aspect and area bounds already force it. */
  lemma YoloShapeBoundsSides(b: Box)
    requires YoloBallShape(b)
    ensures b.Width() < 300.0 && b.Height() < 300.0
  {
    SidesBelow(b.Width(), b.Height());
  }

  /** The arithmetic behind `YoloShapeBoundsSides`. */
  lemma SidesBelow(w: real, h: real)
    requires h > 15.0 && w > 15.0 && 0.5 < w / h < 2.5 && 300.0 < w * h < 10000.0
    ensures w < 300.0 && h < 300.0
  {
    RatioBounds(w, h, 0.5, 2.5);
    SquareBound(w, h, 2.5, 10000.0);
    assert h < 2.0 * w;
    assert h * w == w * h;
    SquareBound(h, w, 2.0, 10000.0);
    BelowIfSquareBelow(w, 300.0);
    BelowIfSquareBelow(h, 300.0);
  }

  /** Every ball `_yolo_detect` keeps passes the validity test of
      `_filter_duplicate_balls`. */
  lemma YoloBallIsStrict(p: Proposal)
    requires IsYoloBall(p)
    ensures ToDetection(p).box.Height() != 0.0 && IsStrictBall(ToDetection(p))
  {
    YoloShapeBoundsSides(p.box);
  }

  /** `_filter_duplicate_balls` maps no balls to none, and returns its
      input unchanged when no ball passes the validity test. */
  lemma FilterDuplicateBallsFallback(balls: seq<Detection>)
    requires AllHeightsNonZero(balls)
    ensures |balls| == 0 ==> FilterDuplicateBalls(balls) == []
    ensures (forall d :: d in balls ==> !IsStrictBall(d)) ==> FilterDuplicateBalls(balls) == balls
  {
    if forall d :: d in balls ==> !IsStrictBall(d) {
      var valid := ValidBalls(balls);
      if |valid| > 0 {
        assert valid[0] in valid;
      }
    }
  }

  /** When some ball is valid, `_filter_duplicate_balls` returns the three
      most confident valid balls, or all of them when there are fewer: as many
      as that, drawn from the valid balls without repetition, most confident
      first, and every valid ball left out is no more confident than the last
      one kept. */
  lemma FilterDuplicateBallsRanked(balls: seq<Detection>)
    requires AllHeightsNonZero(balls)
    requires exists d :: d in balls && IsStrictBall(d)
    ensures var r := FilterDuplicateBalls(balls);
      var valid := ValidBalls(balls);
      && |r| == (if |valid| < MaxBalls then |valid| else MaxBalls)
      && 0 < |r| <= MaxBalls
      && multiset(r) <= multiset(valid)
      && (forall d :: d in r ==> IsStrictBall(d))
      && SortedDesc(r, Conf)
      && (forall v :: v in multiset(valid) - multiset(r) ==> Conf(v) <= Conf(r[|r| - 1]))
  {
    var valid := ValidBalls(balls);
    var d :| d in balls && IsStrictBall(d);
    assert d in valid;
    var sorted := SortDesc(valid, Conf);
    var r := Take(sorted, MaxBalls);
    assert FilterDuplicateBalls(balls) == r;
    SortDescFacts(valid, Conf);
    assert |sorted| == |multiset(sorted)| == |multiset(valid)| == |valid|;
    TakeRanked(sorted, r);
    forall x | x in r
      ensures IsStrictBall(x)
    {
      assert x in multiset(valid);
    }
  }

  /** The first three of a non-empty sorted sequence. */
  lemma TakeRanked(sorted: seq<Detection>, r: seq<Detection>)
    requires SortedDesc(sorted, Conf) && |sorted| > 0 && r == Take(sorted, MaxBalls)
    ensures |r| == if |sorted| < MaxBalls then |sorted| else MaxBalls
    ensures multiset(r) <= multiset(sorted)
    ensures SortedDesc(r, Conf)
    ensures forall v :: v in multiset(sorted) - multiset(r) ==> Conf(v) <= Conf(r[|r| - 1])
  {
    if |sorted| > MaxBalls {
      assert r == sorted[..MaxBalls];
      assert sorted == r + sorted[MaxBalls..];
      TopKept(sorted, MaxBalls);
    }
  }

  /** Elements past a prefix of a sorted sequence rank no higher than the
      prefix's last element. */
  lemma TopKept(sorted: seq<Detection>, k: nat)
    requires SortedDesc(sorted, Conf) && 0 < k <= |sorted|
    ensures forall v :: v in multiset(sorted) - multiset(sorted[..k]) ==> Conf(v) <= Conf(sorted[k - 1])
  {
    assert sorted == sorted[..k] + sorted[k..];
    assert multiset(sorted) == multiset(sorted[..k]) + multiset(sorted[k..]);
    forall v | v in multiset(sorted) - multiset(sorted[..k])
      ensures Conf(v) <= Conf(sorted[k - 1])
    {
      assert v in multiset(sorted[k..]);
      var j :| 0 <= j < |sorted[k..]| && sorted[k..][j] == v;
      assert sorted[k + j] == v;
    }
  }

  /** Everything `detect_objects` returns; goals are never detected. */
  datatype DetectionResult = DetectionResult(detections: seq<Detection>, soccerBalls: seq<Detection>, goalAreas: seq<Detection>)

  /** `detect_objects`: the model's balls re-validated by
      `_filter_duplicate_balls`; goal detection is switched off. */
  function DetectObjects(ps: seq<Proposal>): DetectionResult
  {
    var yolo := YoloDetect(ps);
    DetectionResult(yolo.detections, FilterDuplicateBalls(yolo.soccerBalls), [])
  }

  /** Every ball `_yolo_detect` keeps passes the stricter test, so the
      fallback of `_filter_duplicate_balls` never fires through
      `detect_objects`: its balls are exactly the three most confident model
      balls, and every one of them is valid. */
  lemma DetectObjectsNeverFallsBack(ps: seq<Proposal>)
    ensures ValidBalls(YoloBalls(ps)) == YoloBalls(ps)
    ensures DetectObjects(ps).soccerBalls == Take(SortDesc(YoloBalls(ps), Conf), MaxBalls)
    ensures DetectObjects(ps).goalAreas == []
    ensures forall d :: d in DetectObjects(ps).soccerBalls ==> IsStrictBall(d)
  {
    AllStrict(ps);
    var balls := YoloBalls(ps);
    var r := DetectObjects(ps).soccerBalls;
    SortDescElements(balls, Conf);
    TakeIsSubsequence(SortDesc(balls, Conf), MaxBalls);
    SubsequenceElements(r, SortDesc(balls, Conf));
  }

  /** Validation keeps every ball of `_yolo_detect`. */
  lemma {:induction false} AllStrict(ps: seq<Proposal>)
    ensures ValidBalls(YoloBalls(ps)) == YoloBalls(ps)
  {
    if |ps| > 0 {
      AllStrict(ps[1..]);
      if IsYoloBall(ps[0]) {
        YoloBallIsStrict(ps[0]);
        var rest := YoloBalls(ps[1..]);
        assert YoloBalls(ps) == [ToDetection(ps[0])] + rest;
        assert ([ToDetection(ps[0])] + rest)[1..] == rest;
      }
    }
  }
}

=== FILE: client_geometry.dfy ===
/** The two rectangle helpers at the top of screens/RecordScreen.tsx: the
    closed-interval overlap test between a ball box and the annotated goal,
    and the bounding rectangle of the annotated polygon. Rectangles reuse the
    detector's `Box` record `{x1, y1, x2, y2}`. */
module ClientGeometry {
  import opened Wrappers
  import opened Geometry

  /** `doRectanglesOverlap`: the rectangles overlap unless one lies strictly
      to one side of the other. */
  predicate DoRectanglesOverlap(a: Box, b: Box) {
    !(a.x2 < b.x1 || b.x2 < a.x1 || a.y2 < b.y1 || b.y2 < a.y1)
  }

  /** The closed rectangle `r` contains `p`. */
  predicate InRect(p: Point, r: Box) {
    r.x1 <= p.x <= r.x2 && r.y1 <= p.y <= r.y2
  }

  /** The rectangle is not inverted on either axis. */
  predicate Upright(r: Box) {
    r.x1 <= r.x2 && r.y1 <= r.y2
  }

  /** The test does not depend on argument order. */
  lemma OverlapSymmetric(a: Box, b: Box)
    ensures DoRectanglesOverlap(a, b) == DoRectanglesOverlap(b, a)
  {
  }

  /** For upright rectangles the test holds exactly when the two closed
      rectangles share a point, so rectangles touching along an edge or at a
      corner overlap. */
  lemma OverlapIffCommonPoint(a: Box, b: Box)
    requires Upright(a) && Upright(b)
    ensures DoRectanglesOverlap(a, b) <==> exists p :: InRect(p, a) && InRect(p, b)
  {
    if DoRectanglesOverlap(a, b) {
      var p := Point(Max(a.x1, b.x1), Max(a.y1, b.y1));
      assert InRect(p, a) && InRect(p, b);
    }
  }

  /** Two unit squares sharing only the corner `(1, 1)` overlap. */
  lemma CornerContactOverlaps()
    ensures DoRectanglesOverlap(Box(0.0, 0.0, 1.0, 1.0), Box(1.0, 1.0, 2.0, 2.0))
    ensures !DoRectanglesOverlap(Box(0.0, 0.0, 1.0, 1.0), Box(1.5, 0.0, 2.0, 1.0))
  {
  }

  /** The smallest of the coordinates. */
  function SeqMin(xs: seq<real>): (m: real)
    requires |xs| > 0
    ensures forall i :: 0 <= i < |xs| ==> m <= xs[i]
    ensures exists i :: 0 <= i < |xs| && m == xs[i]
  {
    if |xs| == 1 then xs[0]
    else
      var rest := SeqMin(xs[1..]);
      assert forall i :: 1 <= i < |xs| ==> xs[i] == xs[1..][i - 1];
      Min(xs[0], rest)
  }

  /** The largest of the coordinates. */
  function SeqMax(xs: seq<real>): (m: real)
    requires |xs| > 0
    ensures forall i :: 0 <= i < |xs| ==> xs[i] <= m
    ensures exists i :: 0 <= i < |xs| && m == xs[i]
  {
    if |xs| == 1 then xs[0]
    else
      var rest := SeqMax(xs[1..]);
      assert forall i :: 1 <= i < |xs| ==> xs[i] == xs[1..][i - 1];
      Max(xs[0], rest)
  }

  /** `getBoundingRect`: `Math.min`/`Math.max` over the polygon's
      coordinates. For an empty polygon JavaScript yields the inverted
      rectangle of infinities; the model returns `None` there. */
  function GetBoundingRect(polygon: seq<Point>): (r: Option<Box>)
    ensures r.None? <==> |polygon| == 0
    ensures r.Some? ==> Upright(r.value)
    ensures r.Some? ==> forall i :: 0 <= i < |polygon| ==> InRect(polygon[i], r.value)
    ensures r.Some? ==>
      && (exists i :: 0 <= i < |polygon| && polygon[i].x == r.value.x1)
      && (exists i :: 0 <= i < |polygon| && polygon[i].x == r.value.x2)
      && (exists i :: 0 <= i < |polygon| && polygon[i].y == r.value.y1)
      && (exists i :: 0 <= i < |polygon| && polygon[i].y == r.value.y2)
  {
    if |polygon| == 0 then None
    else
      var xs := seq(|polygon|, i requires 0 <= i < |polygon| => polygon[i].x);
      var ys := seq(|polygon|, i requires 0 <= i < |polygon| => polygon[i].y);
      var b := Box(SeqMin(xs), SeqMin(ys), SeqMax(xs), SeqMax(ys));
      assert forall i :: 0 <= i < |polygon| ==> xs[i] == polygon[i].x && ys[i] == polygon[i].y;
      Some(b)
  }

  /** The bounding rectangle is the smallest rectangle holding the polygon:
      every rectangle that holds all its points holds the bounding rectangle. */
  lemma BoundingRectSmallest(polygon: seq<Point>, r: Box)
    requires |polygon| > 0
    requires forall i :: 0 <= i < |polygon| ==> InRect(polygon[i], r)
    ensures var b := GetBoundingRect(polygon).value;
      r.x1 <= b.x1 && b.x2 <= r.x2 && r.y1 <= b.y1 && b.y2 <= r.y2
  {
    var b := GetBoundingRect(polygon).value;
    var i1 :| 0 <= i1 < |polygon| && polygon[i1].x == b.x1;
    var i2 :| 0 <= i2 < |polygon| && polygon[i2].x == b.x2;
    var j1 :| 0 <= j1 < |polygon| && polygon[j1].y == b.y1;
    var j2 :| 0 <= j2 < |polygon| && polygon[j2].y == b.y2;
    assert InRect(polygon[i1], r) && InRect(polygon[i2], r);
    assert InRect(polygon[j1], r) && InRect(polygon[j2], r);
  }
}

=== FILE: collision.dfy ===
/** The ball/goal collision classifier (`check_ball_goal_collision` in
    ai_model/soccer_detector.py). For every confident ball and every goal, in
    ball-major order, a ball centre inside a goal box ends the scan as a goal;
    otherwise the pair closest to its goal, within a threshold derived from the
    ball size, is a contact candidate, reported when nearer than 20 pixels.
    Distances are kept squared: every comparison the detector makes is between
    non-negative distances, so comparing squares decides the same way. */
module Collision {
  import opened Wrappers
  import opened Geometry
  import opened Detections

  datatype CollisionKind = GoalContact | GoalScored

  /** `float('inf')`, or the square of a finite distance. */
  datatype Distance = Infinite | Squared(d2: real)

  datatype CollisionInfo = CollisionInfo(
    hasCollision: bool,
    kind: Option<CollisionKind>,
    ball: Option<Detection>,
    goal: Option<Detection>,
    distance: Distance)

  /** The record returned whenever nothing collides. */
  const NoCollision := CollisionInfo(false, None, None, None, Infinite)

  /** Only balls above this confidence are considered. */
  const MinBallConfidence: real := 0.95

  /** The threshold never drops below 5 pixels... */
  const MinThreshold: real := 5.0

  /** ...and a contact must be nearer than 20 pixels. */
  const MaxContactDistance: real := 20.0

  datatype BallGoal = BallGoal(ball: Detection, goal: Detection)

  /** The ball centre lies in the goal box, bounds included. */
  predicate Inside(p: BallGoal) {
    var c, g := p.ball.center, p.goal.box;
    g.x1 <= c.x <= g.x2 && g.y1 <= c.y <= g.y2
  }

  /** Squared distance from the ball centre to the nearest point of the goal
      box, the centre clamped into the box. */
  function DistSq(p: BallGoal): (d2: real)
    ensures d2 >= 0.0
  {
    var c, g := p.ball.center, p.goal.box;
    var dx := c.x - Max(g.x1, Min(c.x, g.x2));
    var dy := c.y - Max(g.y1, Min(c.y, g.y2));
    dx * dx + dy * dy
  }

  /** `max(5, radius * 0.3)` with the radius half the larger side of the
      ball box. */
  function Threshold(ball: Detection): (th: real)
    ensures th >= MinThreshold
  {
    Max(MinThreshold, Max(ball.box.Width(), ball.box.Height()) / 2.0 * 0.3)
  }

  /** `distance <= collision_threshold`, on squares. */
  predicate Qualifies(p: BallGoal) {
    DistSq(p) <= Threshold(p.ball) * Threshold(p.ball)
  }

  /** What the classifier reports for a pair: the ball is inside the goal, or
      near enough to qualify and nearer than 20 pixels. */
  predicate Collides(p: BallGoal) {
    Inside(p) || (Qualifies(p) && DistSq(p) < MaxContactDistance * MaxContactDistance)
  }

  /** The balls the classifier trusts, in input order. */
  function ConfidentBalls(balls: seq<Detection>): (r: seq<Detection>)
    ensures |r| <= |balls|
    ensures forall b :: b in r <==> b in balls && b.confidence > MinBallConfidence
  {
    if |balls| == 0 then []
    else
      var rest := ConfidentBalls(balls[1..]);
      assert forall b :: b in balls <==> b == balls[0] || b in balls[1..];
      if balls[0].confidence > MinBallConfidence then [balls[0]] + rest else rest
  }

  /** One ball against every goal, in goal order. */
  function GoalPairs(ball: Detection, goals: seq<Detection>): (r: seq<BallGoal>)
    ensures |r| == |goals|
    ensures forall i :: 0 <= i < |goals| ==> r[i] == BallGoal(ball, goals[i])
  {
    seq(|goals|, i requires 0 <= i < |goals| => BallGoal(ball, goals[i]))
  }

  /** The pairs the two nested loops visit, ball-major. */
  function Pairs(balls: seq<Detection>, goals: seq<Detection>): seq<BallGoal> {
    if |balls| == 0 then [] else GoalPairs(balls[0], goals) + Pairs(balls[1..], goals)
  }

  /** The contact candidate kept so far: a pair and its squared distance. */
  datatype Candidate = Candidate(pair: BallGoal, d2: real)

  /** How the scan ends: at the first pair with the ball inside its goal, or
      after every pair with the best contact candidate, if any. */
  datatype ScanOutcome = Scored(pair: BallGoal) | Exhausted(best: Option<Candidate>)

  /** The loop body: return at the first inside pair, otherwise replace the
      candidate by a qualifying pair strictly nearer than it. */
  function Scan(ps: seq<BallGoal>, best: Option<Candidate>): ScanOutcome {
    if |ps| == 0 then Exhausted(best)
    else if Inside(ps[0]) then Scored(ps[0])
    else
      var d2 := DistSq(ps[0]);
      if Qualifies(ps[0]) && (best.None? || d2 < best.value.d2) then
        Scan(ps[1..], Some(Candidate(ps[0], d2)))
      else
        Scan(ps[1..], best)
  }

  /** The record built from how the scan ended. */
  function Report(o: ScanOutcome): CollisionInfo {
    match o
    case Scored(p) => CollisionInfo(true, Some(GoalScored), Some(p.ball), Some(p.goal), Squared(0.0))
    case Exhausted(Some(c)) =>
      if c.d2 < MaxContactDistance * MaxContactDistance then
        CollisionInfo(true, Some(GoalContact), Some(c.pair.ball), Some(c.pair.goal), Squared(c.d2))
      else
        NoCollision
    case Exhausted(None) => NoCollision
  }

  /** The classifier with the goals it scans as a parameter: `goals` only
      decides whether the classifier runs at all, `validGoals` is what the
      loops visit. */
  function CollisionWith(balls: seq<Detection>, goals: seq<Detection>, validGoals: seq<Detection>): (r: CollisionInfo)
    ensures |balls| == 0 || |goals| == 0 || |validGoals| == 0 ==> r == NoCollision
    ensures (forall b :: b in balls ==> b.confidence <= MinBallConfidence) ==> r == NoCollision
    ensures r.hasCollision ==>
      && r.ball.Some? && r.ball.value in balls && r.ball.value.confidence > MinBallConfidence
      && r.goal.Some? && r.goal.value in validGoals
  {
    if |balls| == 0 || |goals| == 0 then NoCollision
    else
      var valid := ConfidentBalls(balls);
      if |valid| == 0 || |validGoals| == 0 then NoCollision
      else
        var o := Scan(Pairs(valid, validGoals), None);
        ScanOrigin(Pairs(valid, validGoals), None);
        PairsMembers(valid, validGoals);
        Report(o)
  }

  /** `check_ball_goal_collision` as shipped: the goals it scans are the empty
      list, so it never reports a collision. */
  function CheckBallGoalCollision(balls: seq<Detection>, goals: seq<Detection>): (r: CollisionInfo)
    ensures r == NoCollision
    ensures !r.hasCollision && r.distance == Infinite
  {
    CollisionWith(balls, goals, [])
  }

  /** `is_goal_scoring_moment`: whether the shipped classifier collides. */
  function IsGoalScoringMoment(balls: seq<Detection>, goals: seq<Detection>): (r: bool)
    ensures !r
  {
    CheckBallGoalCollision(balls, goals).hasCollision
  }

  /** Exactly the ball/goal combinations are visited. */
  lemma {:induction false} PairsMembers(balls: seq<Detection>, goals: seq<Detection>)
    ensures forall p :: p in Pairs(balls, goals) <==> p.ball in balls && p.goal in goals
  {
    if |balls| > 0 {
      PairsMembers(balls[1..], goals);
      assert forall b :: b in balls <==> b == balls[0] || b in balls[1..];
      forall p
        ensures p in GoalPairs(balls[0], goals) <==> p.ball == balls[0] && p.goal in goals
      {
        if p.ball == balls[0] && p.goal in goals {
          var i :| 0 <= i < |goals| && goals[i] == p.goal;
          assert GoalPairs(balls[0], goals)[i] == p;
        }
      }
    }
  }

  /** Whatever the scan ends with comes from the pairs or the candidate it
      started with. */
  lemma {:induction false} ScanOrigin(ps: seq<BallGoal>, best: Option<Candidate>)
    ensures Scan(ps, best).Scored? ==> Scan(ps, best).pair in ps
    ensures Scan(ps, best).Exhausted? && Scan(ps, best).best.Some? ==>
      Scan(ps, best).best == best || Scan(ps, best).best.value.pair in ps
  {
    if |ps| > 0 && !Inside(ps[0]) {
      var d2 := DistSq(ps[0]);
      if Qualifies(ps[0]) && (best.None? || d2 < best.value.d2) {
        ScanOrigin(ps[1..], Some(Candidate(ps[0], d2)));
      } else {
        ScanOrigin(ps[1..], best);
      }
    }
  }

  /** The scan ends at the first pair whose ball is inside its goal, whatever
      it has collected before. */
  lemma {:induction false} ScanScored(ps: seq<BallGoal>, best: Option<Candidate>, k: nat)
    requires k < |ps| && Inside(ps[k])
    requires forall j :: 0 <= j < k ==> !Inside(ps[j])
    ensures Scan(ps, best) == Scored(ps[k])
  {
    if k > 0 {
      var d2 := DistSq(ps[0]);
      if Qualifies(ps[0]) && (best.None? || d2 < best.value.d2) {
        ScanScored(ps[1..], Some(Candidate(ps[0], d2)), k - 1);
      } else {
        ScanScored(ps[1..], best, k - 1);
      }
    }
  }

  /** `ps[k]` qualifies, is nearest among the qualifying pairs, and strictly
      nearer than every qualifying pair before it. */
  ghost predicate FirstNearest(ps: seq<BallGoal>, k: int) {
    && 0 <= k < |ps| && Qualifies(ps[k])
    && (forall j :: 0 <= j < |ps| && Qualifies(ps[j]) ==> DistSq(ps[k]) <= DistSq(ps[j]))
    && (forall j :: 0 <= j < k && Qualifies(ps[j]) ==> DistSq(ps[k]) < DistSq(ps[j]))
  }

  /** Without inside pairs, the scan keeps the first nearest qualifying pair
      unless the candidate it started with is at least as near. */
  lemma {:induction false} ScanNearest(ps: seq<BallGoal>, best: Option<Candidate>)
    requires forall j :: 0 <= j < |ps| ==> !Inside(ps[j])
    ensures Scan(ps, best).Exhausted?
    ensures var b := Scan(ps, best).best;
      && (b.None? <==> best.None? && forall j :: 0 <= j < |ps| ==> !Qualifies(ps[j]))
      && (b.Some? ==> forall j :: 0 <= j < |ps| && Qualifies(ps[j]) ==> b.value.d2 <= DistSq(ps[j]))
      && (b.Some? && best.Some? ==> b.value.d2 <= best.value.d2)
      && (b.Some? && b != best ==>
            && (best.Some? ==> b.value.d2 < best.value.d2)
            && exists k :: FirstNearest(ps, k) && b.value == Candidate(ps[k], DistSq(ps[k])))
  {
    if |ps| > 0 {
      var d2 := DistSq(ps[0]);
      var next := if Qualifies(ps[0]) && (best.None? || d2 < best.value.d2) then Some(Candidate(ps[0], d2)) else best;
      ScanNearest(ps[1..], next);
      assert Scan(ps, best) == Scan(ps[1..], next);
      var b := Scan(ps, best).best;
      if b.Some? && b != best {
        if b == next {
          assert FirstNearest(ps, 0);
        } else {
          var k :| FirstNearest(ps[1..], k) && b.value == Candidate(ps[1..][k], DistSq(ps[1..][k]));
          assert FirstNearest(ps, k + 1);
        }
      }
    }
  }

  /** The classifier over given goals collides exactly when some confident
      ball is inside some goal, or qualifies against it nearer than 20
      pixels. */
  lemma CollisionIff(balls: seq<Detection>, goals: seq<Detection>, validGoals: seq<Detection>)
    requires |goals| > 0
    ensures CollisionWith(balls, goals, validGoals).hasCollision <==>
      exists b, g :: b in balls && g in validGoals && b.confidence > MinBallConfidence && Collides(BallGoal(b, g))
  {
    var valid := ConfidentBalls(balls);
    var ps := Pairs(valid, validGoals);
    PairsMembers(valid, validGoals);
    if exists j :: 0 <= j < |ps| && Inside(ps[j]) {
      var k := FirstInside(ps);
      ScanScored(ps, None, k);
    } else {
      ScanNearest(ps, None);
      var o := Scan(ps, None);
      if exists b, g :: b in balls && g in validGoals && b.confidence > MinBallConfidence && Collides(BallGoal(b, g)) {
        var b, g :| b in balls && g in validGoals && b.confidence > MinBallConfidence && Collides(BallGoal(b, g));
        var j :| 0 <= j < |ps| && ps[j] == BallGoal(b, g);
        assert Qualifies(ps[j]);
      }
    }
  }

  /** A reported goal has the ball centre inside the goal box at distance 0; a
      reported contact has no confident ball inside any goal, and its pair
      qualifies, is nearer than 20 pixels, and is the nearest qualifying pair. */
  lemma CollisionChoice(balls: seq<Detection>, goals: seq<Detection>, validGoals: seq<Detection>)
    requires CollisionWith(balls, goals, validGoals).hasCollision
    ensures var r := CollisionWith(balls, goals, validGoals);
      var p := BallGoal(r.ball.value, r.goal.value);
      && r.kind.Some?
      && (r.kind.value == GoalScored ==> Inside(p) && r.distance == Squared(0.0))
      && (r.kind.value == GoalContact ==>
            && (forall b, g :: b in balls && g in validGoals && b.confidence > MinBallConfidence ==> !Inside(BallGoal(b, g)))
            && Qualifies(p) && r.distance == Squared(DistSq(p))
            && DistSq(p) < MaxContactDistance * MaxContactDistance
            && (forall b, g :: b in balls && g in validGoals && b.confidence > MinBallConfidence && Qualifies(BallGoal(b, g)) ==>
                  DistSq(p) <= DistSq(BallGoal(b, g))))
  {
    var valid := ConfidentBalls(balls);
    var ps := Pairs(valid, validGoals);
    PairsMembers(valid, validGoals);
    if exists j :: 0 <= j < |ps| && Inside(ps[j]) {
      var k := FirstInside(ps);
      ScanScored(ps, None, k);
    } else {
      ScanNearest(ps, None);
      forall b, g | b in balls && g in validGoals && b.confidence > MinBallConfidence
        ensures !Inside(BallGoal(b, g))
      {
        var j :| 0 <= j < |ps| && ps[j] == BallGoal(b, g);
      }
      var best := Scan(ps, None).best;
      var k :| FirstNearest(ps, k) && best.value == Candidate(ps[k], DistSq(ps[k]));
      forall b, g | b in balls && g in validGoals && b.confidence > MinBallConfidence && Qualifies(BallGoal(b, g))
        ensures DistSq(ps[k]) <= DistSq(BallGoal(b, g))
      {
        var j :| 0 <= j < |ps| && ps[j] == BallGoal(b, g);
      }
    }
  }

  /** The index of the first pair whose ball is inside its goal. */
  function FirstInside(ps: seq<BallGoal>): (k: nat)
    requires exists j :: 0 <= j < |ps| && Inside(ps[j])
    ensures k < |ps| && Inside(ps[k])
    ensures forall j :: 0 <= j < k ==> !Inside(ps[j])
  {
    if Inside(ps[0]) then 0
    else
      assert exists j :: 0 <= j < |ps[1..]| && Inside(ps[1..][j]) by {
        var j :| 0 <= j < |ps| && Inside(ps[j]);
        assert ps[1..][j - 1] == ps[j];
      }
      1 + FirstInside(ps[1..])
  }

  /** A 20-pixel ball whose centre sits 5 pixels right of a goal's edge is in
      contact: the threshold floor of 5 pixels is reached inclusively. */
  lemma ContactAtThreshold()
    ensures var ball := Detection(Box(100.0, 100.0, 120.0, 120.0), 0.99, SportsBall, Point(110.0, 110.0), Yolo, [], None);
      var goal := Detection(Box(0.0, 0.0, 105.0, 200.0), 0.7, Goal, Point(52.5, 100.0), EdgeLinesFast, [], None);
      CollisionWith([ball], [goal], [goal]) == CollisionInfo(true, Some(GoalContact), Some(ball), Some(goal), Squared(25.0))
  {
    var ball := Detection(Box(100.0, 100.0, 120.0, 120.0), 0.99, SportsBall, Point(110.0, 110.0), Yolo, [], None);
    var goal := Detection(Box(0.0, 0.0, 105.0, 200.0), 0.7, Goal, Point(52.5, 100.0), EdgeLinesFast, [], None);
    var p := BallGoal(ball, goal);
    assert ConfidentBalls([ball]) == [ball];
    assert Pairs([ball], [goal]) == [p];
    assert DistSq(p) == 25.0;
    assert Threshold(ball) == 5.0;
    assert Scan([p], None) == Exhausted(Some(Candidate(p, 25.0)));
  }
}

=== FILE: combinations.dfy ===
/** The index quadruples that `_find_rectangles_from_corners`
    (ai_model/soccer_detector.py) visits with four nested loops
    `i < j < k < l`: strictly increasing tuples in lexicographic order. */
module Combinations {

  /** `[x] + t` for every tuple `t` of `ts`, in order. */
  function Prepend(x: nat, ts: seq<seq<nat>>): (r: seq<seq<nat>>)
    ensures |r| == |ts|
    ensures forall i :: 0 <= i < |ts| ==> r[i] == [x] + ts[i]
  {
    seq(|ts|, i requires 0 <= i < |ts| => [x] + ts[i])
  }

  /** The tuples of length `k` drawn from `[lo, n)`, listed as nested loops
      list them: every tuple starting with `lo` first, then the rest. */
  function Combos(lo: nat, n: nat, k: nat): seq<seq<nat>>
    decreases n - lo
  {
    if k == 0 then [[]]
    else if lo >= n then []
    else Prepend(lo, Combos(lo + 1, n, k - 1)) + Combos(lo + 1, n, k)
  }

  /** `t` is strictly increasing and every entry lies in `[lo, n)`. */
  ghost predicate IncreasingIn(t: seq<nat>, lo: nat, n: nat) {
    && (forall i :: 0 <= i < |t| ==> lo <= t[i] < n)
    && (forall i, j :: 0 <= i < j < |t| ==> t[i] < t[j])
  }

  /** The binomial coefficient by Pascal's rule. */
  function Choose(n: nat, k: nat): nat {
    if k == 0 then 1
    else if n == 0 then 0
    else Choose(n - 1, k - 1) + Choose(n - 1, k)
  }

  /** No tuple appears twice. */
  ghost predicate Distinct(ts: seq<seq<nat>>) {
    forall i, j :: 0 <= i < j < |ts| ==> ts[i] != ts[j]
  }

  /** Membership in `Prepend`. */
  lemma PrependMember(x: nat, ts: seq<seq<nat>>, t: seq<nat>)
    ensures t in Prepend(x, ts) <==> |t| > 0 && t[0] == x && t[1..] in ts
  {
    if t in Prepend(x, ts) {
      var i :| 0 <= i < |ts| && Prepend(x, ts)[i] == t;
      assert t[1..] == ts[i];
    }
    if |t| > 0 && t[0] == x && t[1..] in ts {
      var i :| 0 <= i < |ts| && ts[i] == t[1..];
      assert Prepend(x, ts)[i] == t;
    }
  }

  /** Exactly the strictly increasing tuples of length `k` in `[lo, n)` are
      listed. */
  lemma CombosMembers(lo: nat, n: nat, k: nat)
    ensures forall t :: t in Combos(lo, n, k) <==> |t| == k && IncreasingIn(t, lo, n)
  {
    forall t
      ensures t in Combos(lo, n, k) <==> |t| == k && IncreasingIn(t, lo, n)
    {
      if t in Combos(lo, n, k) {
        CombosSound(lo, n, k, t);
      }
      if |t| == k && IncreasingIn(t, lo, n) {
        CombosComplete(lo, n, t);
      }
    }
  }

  /** Every listed tuple is strictly increasing, of length `k`, in `[lo, n)`. */
  lemma {:induction false} CombosSound(lo: nat, n: nat, k: nat, t: seq<nat>)
    requires t in Combos(lo, n, k)
    ensures |t| == k && IncreasingIn(t, lo, n)
    decreases n - lo
  {
    if k > 0 {
      var first := Combos(lo + 1, n, k - 1);
      var rest := Combos(lo + 1, n, k);
      if t in rest {
        CombosSound(lo + 1, n, k, t);
      } else {
        assert t in Prepend(lo, first);
        PrependMember(lo, first, t);
        CombosSound(lo + 1, n, k - 1, t[1..]);
        assert t == [lo] + t[1..];
        forall i, j | 0 <= i < j < |t|
          ensures t[i] < t[j]
        {
          assert t[j] == t[1..][j - 1];
          if i > 0 {
            assert t[i] == t[1..][i - 1];
          }
        }
        forall i | 0 <= i < |t|
          ensures lo <= t[i] < n
        {
          if i > 0 {
            assert t[i] == t[1..][i - 1];
          }
        }
      }
    }
  }

  /** Every strictly increasing tuple in `[lo, n)` is listed. */
  lemma {:induction false} CombosComplete(lo: nat, n: nat, t: seq<nat>)
    requires IncreasingIn(t, lo, n)
    ensures t in Combos(lo, n, |t|)
    decreases n - lo
  {
    var k := |t|;
    if k == 0 {
      assert t == [];
    } else {
      assert lo <= t[0] < n;
      if t[0] == lo {
        var tail := t[1..];
        forall i | 0 <= i < |tail|
          ensures lo + 1 <= tail[i] < n
        {
          assert t[0] < t[i + 1];
        }
        assert IncreasingIn(tail, lo + 1, n);
        CombosComplete(lo + 1, n, tail);
        PrependMember(lo, Combos(lo + 1, n, k - 1), t);
      } else {
        forall i | 0 <= i < |t|
          ensures lo + 1 <= t[i]
        {
          if i > 0 {
            assert t[0] < t[i];
          }
        }
        CombosComplete(lo + 1, n, t);
      }
    }
  }

  /** `n - lo` choose `k` tuples are listed. */
  lemma {:induction false} CombosCount(lo: nat, n: nat, k: nat)
    ensures |Combos(lo, n, k)| == Choose(if lo <= n then n - lo else 0, k)
    decreases n - lo
  {
    if k > 0 && lo < n {
      CombosCount(lo + 1, n, k - 1);
      CombosCount(lo + 1, n, k);
    }
  }

  /** There are `Choose(n, 4)` index quadruples below `n`. */
  lemma QuadrupleCount(n: nat)
    ensures |Combos(0, n, 4)| == Choose(n, 4)
  {
    CombosCount(0, n, 4);
  }

  /** Each tuple is listed once. */
  lemma {:induction false} CombosDistinct(lo: nat, n: nat, k: nat)
    ensures Distinct(Combos(lo, n, k))
    decreases n - lo
  {
    if k > 0 && lo < n {
      var first := Prepend(lo, Combos(lo + 1, n, k - 1));
      var rest := Combos(lo + 1, n, k);
      CombosDistinct(lo + 1, n, k - 1);
      CombosDistinct(lo + 1, n, k);
      var all := first + rest;
      forall i, j | 0 <= i < j < |all|
        ensures all[i] != all[j]
      {
        if j < |first| {
          assert all[i][1..] == Combos(lo + 1, n, k - 1)[i];
          assert all[j][1..] == Combos(lo + 1, n, k - 1)[j];
        } else if i >= |first| {
          assert all[i] == rest[i - |first|] && all[j] == rest[j - |first|];
        } else {
          assert all[i][0] == lo;
          assert all[j] in rest;
          CombosSound(lo + 1, n, k, all[j]);
          assert all[j][0] >= lo + 1;
        }
      }
    }
  }

  /** There are no quadruples among fewer than four indices. */
  lemma {:induction false} ChooseBelow(n: nat, k: nat)
    requires n < k
    ensures Choose(n, k) == 0
  {
    if n > 0 {
      ChooseBelow(n - 1, k - 1);
      ChooseBelow(n - 1, k);
    }
  }

  /** The closed form of `Choose(n, 4)`. */
  lemma {:induction false} ChooseFour(n: nat)
    ensures 24 * Choose(n, 4) == n * (n - 1) * (n - 2) * (n - 3)
  {
    if n > 0 {
      ChooseFour(n - 1);
      ChooseThree(n - 1);
      var m := n - 1;
      assert 24 * Choose(n, 4) == 24 * Choose(m, 3) + 24 * Choose(m, 4);
      assert 24 * Choose(m, 3) == 4 * (m * (m - 1) * (m - 2));
      assert m * (m - 1) * (m - 2) * (m - 3) + 4 * (m * (m - 1) * (m - 2)) == (m + 1) * m * (m - 1) * (m - 2);
    }
  }

  /** The closed form of `Choose(n, 3)`. */
  lemma {:induction false} ChooseThree(n: nat)
    ensures 6 * Choose(n, 3) == n * (n - 1) * (n - 2)
  {
    if n > 0 {
      ChooseThree(n - 1);
      ChooseTwo(n - 1);
      var m := n - 1;
      assert m * (m - 1) * (m - 2) + 3 * (m * (m - 1)) == (m + 1) * m * (m - 1);
    }
  }

  /** The closed form of `Choose(n, 2)`. */
  lemma {:induction false} ChooseTwo(n: nat)
    ensures 2 * Choose(n, 2) == n * (n - 1)
  {
    if n > 0 {
      ChooseTwo(n - 1);
      assert Choose(n - 1, 1) == n - 1 by { ChooseOne(n - 1); }
      assert (n - 1) * (n - 2) + 2 * (n - 1) == n * (n - 1);
    }
  }

  lemma {:induction false} ChooseOne(n: nat)
    ensures Choose(n, 1) == n
  {
    if n > 0 {
      ChooseOne(n - 1);
    }
  }
}

=== FILE: detections.dfy ===
/** The detection record that every stage of the detector passes around
    (ai_model/soccer_detector.py builds it as a dict with `bbox`,
    `confidence`, `class_name`, `center`, `detection_method`, and optionally
    `corners` and `timestamp`). */
module Detections {
  import opened Wrappers
  import opened Geometry

  /** Semantic tag of a detection: the detector's class table (person 0,
      sports ball 32, frisbee 37), `goal` for geometric goal candidates, and
      `class_<id>` for every other model class. */
  datatype Label = Person | SportsBall | Frisbee | Goal | OtherClass(id: int)

  /** Provenance: which generator produced the detection. */
  datatype Source = Yolo | EdgeLinesFast | ContourFast

  datatype Detection = Detection(
    box: Box,
    confidence: real,
    className: Label,
    center: Point,
    source: Source,
    corners: seq<Point>,
    timestamp: Option<real>)

  /** The model class id the detector treats as a football. */
  const SportsBallClassId: int := 32

  /** The sort key the detector uses everywhere: `x['confidence']`. */
  function Conf(d: Detection): real { d.confidence }

  /** The other two ids of the detector's class table. */
  const PersonClassId: int := 0
  const FrisbeeClassId: int := 37

  /** `ball_classes.get(class_id, f'class_{class_id}')`: the three table ids
      get their names, and every other id is reported as itself. */
  function ClassLabel(classId: int): (l: Label)
    ensures l == Person <==> classId == PersonClassId
    ensures l == SportsBall <==> classId == SportsBallClassId
    ensures l == Frisbee <==> classId == FrisbeeClassId
    ensures classId != PersonClassId && classId != SportsBallClassId && classId != FrisbeeClassId ==>
      l == OtherClass(classId)
    ensures l.OtherClass? ==> l.id == classId
  {
    if classId == PersonClassId then Person
    else if classId == SportsBallClassId then SportsBall
    else if classId == FrisbeeClassId then Frisbee
    else OtherClass(classId)
  }
}

=== FILE: frame_pipeline.dfy ===
/** One call of `process_frame` (ai_model/soccer_detector.py): detect the
    balls, append the most confident one, stamped with the current time, to the
    ball history, keep at most 30 entries, and compute the trajectory.
    Collision detection is switched off, so the collision record is the constant
    no-collision record and the frame is never a goal moment. */
module FramePipeline {
  import opened Wrappers
  import opened Detections
  import opened Ranking
  import opened BallFilter
  import opened Trajectory
  import opened Collision

  /** The history keeps at most this many entries once it has reached it. */
  const MaxHistory: nat := 30

  /** `max(current_balls, key=confidence)` with its `timestamp` set to `now`:
      Python's `max` keeps the first of several equally confident balls. */
  function Stamped(balls: seq<Detection>, now: real): (b: Detection)
    requires |balls| > 0
    ensures forall d :: d in balls ==> d.confidence <= b.confidence
    ensures exists i :: (0 <= i < |balls| && b == balls[i].(timestamp := Some(now)) &&
                         forall j :: 0 <= j < i ==> balls[j].confidence < b.confidence)
    ensures b.timestamp == Some(now)
  {
    var m := ArgMax(balls, Conf);
    assert forall d :: d in balls ==> exists j :: 0 <= j < |balls| && d == balls[j];
    balls[m].(timestamp := Some(now))
  }

  /** The history update of `process_frame`: with balls in the frame, append
      the stamped best one, then drop the oldest entry if there are more than
      30. */
  function UpdateHistory(history: seq<Detection>, balls: seq<Detection>, now: real): (r: seq<Detection>)
    ensures |balls| == 0 ==> r == history
    ensures |balls| > 0 ==> |r| == if |history| < MaxHistory then |history| + 1 else |history|
    ensures |balls| > 0 ==> r[|r| - 1] == Stamped(balls, now)
    ensures |history| <= MaxHistory ==> |r| <= MaxHistory
  {
    if |balls| == 0 then history
    else
      var appended := history + [Stamped(balls, now)];
      if |appended| > MaxHistory then appended[1..] else appended
  }

  /** The last `MaxHistory` entries of `s`. */
  function Window(s: seq<Detection>): (r: seq<Detection>)
    ensures |r| == if |s| > MaxHistory then MaxHistory else |s|
    ensures forall i :: 0 <= i < |r| ==> r[i] == s[|s| - |r| + i]
  {
    if |s| > MaxHistory then s[|s| - MaxHistory..] else s
  }

  /** What the detector hands to the history update in one frame. */
  datatype Frame = Frame(balls: seq<Detection>, now: real)

  /** The history after a run of frames. */
  function Replay(history: seq<Detection>, frames: seq<Frame>): seq<Detection>
    decreases |frames|
  {
    if |frames| == 0 then history
    else Replay(UpdateHistory(history, frames[0].balls, frames[0].now), frames[1..])
  }

  /** The entry a frame adds to the history: its stamped best ball, if any. */
  function Added(f: Frame): (r: seq<Detection>)
    ensures |r| <= 1
    ensures |r| == 1 <==> |f.balls| > 0
  {
    if |f.balls| > 0 then [Stamped(f.balls, f.now)] else []
  }

  /** The stamped best ball of every frame that had balls, in frame order. */
  function Recorded(frames: seq<Frame>): seq<Detection> {
    if |frames| == 0 then [] else Added(frames[0]) + Recorded(frames[1..])
  }

  /** The numbers `calculate_ball_trajectory` computes are finite. */
  ghost predicate TrajectoryDefined(history: seq<Detection>) {
    |history| >= MinHistory ==> ConsecutiveTimesDiffer(history)
  }

  /** Everything `process_frame` returns except the unused frame buffer and
      clip information, which are always empty and `None`. */
  datatype FrameResult = FrameResult(
    detections: DetectionResult,
    collision: CollisionInfo,
    trajectory: Option<Trajectory>,
    isGoalMoment: bool,
    history: seq<Detection>,
    timestamp: real)

  /** `process_frame` with the model's proposals and the clock reading as
      inputs. */
  function ProcessFrame(ps: seq<Proposal>, history: seq<Detection>, now: real): (r: FrameResult)
    requires TrajectoryDefined(UpdateHistory(history, DetectObjects(ps).soccerBalls, now))
    ensures r.collision == NoCollision && !r.collision.hasCollision
    ensures !r.isGoalMoment
    ensures |r.history| <= |history| + 1
    ensures |history| <= MaxHistory ==> |r.history| <= MaxHistory
    ensures r.trajectory.None? <==> |r.history| < MinHistory
    ensures r.timestamp == now
    ensures r.detections == DetectObjects(ps)
    ensures |r.detections.soccerBalls| == 0 ==> r.history == history
    ensures |r.detections.soccerBalls| > 0 ==>
      |r.history| > 0 && r.history[|r.history| - 1] == Stamped(r.detections.soccerBalls, now)
  {
    var detection := DetectObjects(ps);
    var updated := UpdateHistory(history, detection.soccerBalls, now);
    FrameResult(detection, NoCollision, CalculateBallTrajectory(updated), false, updated, now)
  }

  /** The history grows only by the frame's best ball: it is the old history
      with that ball appended, less at most the oldest entry. */
  lemma UpdateHistoryKeepsOrder(history: seq<Detection>, balls: seq<Detection>, now: real)
    requires |balls| > 0
    ensures var r := UpdateHistory(history, balls, now);
      var k := |history| + 1 - |r|;
      && 0 <= k <= 1
      && r == (history + [Stamped(balls, now)])[k..]
      && (|history| < MaxHistory ==> k == 0)
  {
  }

  /** From a history of at most 30 entries, one update keeps exactly the last
      30 entries of the history followed by the frame's best ball. */
  lemma UpdateIsWindow(history: seq<Detection>, f: Frame)
    requires |history| <= MaxHistory
    ensures UpdateHistory(history, f.balls, f.now) == Window(history + Added(f))
  {
  }

  /** Windowing twice is windowing once. */
  lemma WindowAppend(s: seq<Detection>, t: seq<Detection>)
    ensures Window(Window(s) + t) == Window(s + t)
  {
    var a, b := Window(Window(s) + t), Window(s + t);
    assert |a| == |b|;
    forall i | 0 <= i < |a|
      ensures a[i] == b[i]
    {
    }
  }

  /** A run of frames from a history of at most 30 entries leaves the last 30
      of the old entries followed by every frame's best ball. */
  lemma {:induction false} ReplayIsWindow(history: seq<Detection>, frames: seq<Frame>)
    requires |history| <= MaxHistory
    ensures Replay(history, frames) == Window(history + Recorded(frames))
    decreases |frames|
  {
    if |frames| == 0 {
      assert history + [] == history;
    } else {
      var f, rest := frames[0], frames[1..];
      var next := UpdateHistory(history, f.balls, f.now);
      var now, later := Added(f), Recorded(rest);
      calc {
        Replay(history, frames);
        Replay(next, rest);
        { ReplayIsWindow(next, rest); }
        Window(next + later);
        { UpdateIsWindow(history, f); }
        Window(Window(history + now) + later);
        { WindowAppend(history + now, later); }
        Window(history + now + later);
        { assert history + now + later == history + (now + later); }
        Window(history + Recorded(frames));
      }
    }
  }

  /** A history of at most 30 entries stays so over any run. */
  lemma ReplayBounded(history: seq<Detection>, frames: seq<Frame>)
    requires |history| <= MaxHistory
    ensures |Replay(history, frames)| <= MaxHistory
  {
    ReplayIsWindow(history, frames);
  }
}

=== FILE: geometry.dfy ===
/** Axis-aligned boxes and the intersection-over-union measure that the
    detector uses to deduplicate goal candidates
    (ai_model/soccer_detector.py, `_calculate_overlap`). */
module Geometry {

  datatype Point = Point(x: real, y: real)

  /** A bounding box `[x1, y1, x2, y2]` in pixels. The detector never checks
      `x1 < x2` or `y1 < y2`, so neither does this type. */
  datatype Box = Box(x1: real, y1: real, x2: real, y2: real)
  {
    function Width(): real { x2 - x1 }

    function Height(): real { y2 - y1 }

    function Area(): real { Width() * Height() }

    /** Midpoint of the box, as the detector computes `center`. */
    function Center(): Point { Point((x1 + x2) / 2.0, (y1 + y2) / 2.0) }

    /** Both sides have positive length. */
    predicate Proper() { x1 < x2 && y1 < y2 }
  }

  function Max(a: real, b: real): (r: real)
    ensures r >= a && r >= b
    ensures r == a || r == b
  {
    if a >= b then a else b
  }

  function Min(a: real, b: real): (r: real)
    ensures r <= a && r <= b
    ensures r == a || r == b
  {
    if a <= b then a else b
  }

  /** The (possibly inverted) box where `a` and `b` meet. */
  function Intersection(a: Box, b: Box): Box {
    Box(Max(a.x1, b.x1), Max(a.y1, b.y1), Min(a.x2, b.x2), Min(a.y2, b.y2))
  }

  /** The open interiors of `a` and `b` share a point: both boxes are proper and
      their extents overlap with positive length on both axes. */
  predicate InteriorsMeet(a: Box, b: Box) {
    && a.Proper() && b.Proper()
    && a.x1 < b.x2 && b.x1 < a.x2
    && a.y1 < b.y2 && b.y1 < a.y2
  }

  /** Intersection over union of two boxes; 0 when the intersection is empty
      on either axis or the union has no area. */
  function CalculateOverlap(a: Box, b: Box): (r: real)
    ensures 0.0 <= r <= 1.0
    ensures r > 0.0 <==> InteriorsMeet(a, b)
  {
    var i := Intersection(a, b);
    if i.x2 <= i.x1 || i.y2 <= i.y1 then
      0.0
    else
      OverlapBounds(a, b);
      var intersection := i.Area();
      var union := a.Area() + b.Area() - intersection;
      RatioInUnit(intersection, union);
      if union > 0.0 then intersection / union else 0.0
  }

  /** A positive part over a whole at least as large lies in (0, 1]. */
  lemma RatioInUnit(part: real, whole: real)
    requires 0.0 < part <= whole
    ensures 0.0 < part / whole <= 1.0
  {
    assert part / whole * whole == part;
  }

  /** `a * b <= c * d` for non-negative factors bounded by `c` and `d`. */
  lemma MulMonotone(a: real, b: real, c: real, d: real)
    requires 0.0 <= a <= c && 0.0 <= b <= d
    ensures a * b <= c * d
  {
    assert a * b <= c * b;
    assert c * b <= c * d;
  }

  /** When the intersection is non-empty, it is no larger than either box, so
      the union is at least the intersection and positive. */
  lemma OverlapBounds(a: Box, b: Box)
    requires Intersection(a, b).x1 < Intersection(a, b).x2
    requires Intersection(a, b).y1 < Intersection(a, b).y2
    ensures InteriorsMeet(a, b)
    ensures 0.0 < Intersection(a, b).Area() <= a.Area()
    ensures Intersection(a, b).Area() <= b.Area()
    ensures a.Area() + b.Area() - Intersection(a, b).Area() >= Intersection(a, b).Area()
  {
    var i := Intersection(a, b);
    MulMonotone(i.Width(), i.Height(), a.Width(), a.Height());
    MulMonotone(i.Width(), i.Height(), b.Width(), b.Height());
    assert i.Width() * i.Height() > 0.0;
  }

  /** The overlap does not depend on argument order. */
  lemma OverlapSymmetric(a: Box, b: Box)
    ensures CalculateOverlap(a, b) == CalculateOverlap(b, a)
  {
  }

  /** Overlap reaches 1 exactly for a proper box against itself. */
  lemma {:induction false} OverlapIsOneIff(a: Box, b: Box)
    ensures CalculateOverlap(a, b) == 1.0 <==> a == b && a.Proper()
  {
    if a == b && a.Proper() {
      assert Intersection(a, a) == a;
      assert a.Area() > 0.0 by { MulMonotone(0.0, 0.0, a.Width(), a.Height()); assert a.Width() * a.Height() > 0.0; }
    }
    if CalculateOverlap(a, b) == 1.0 {
      var i := Intersection(a, b);
      assert InteriorsMeet(a, b);
      OverlapBounds(a, b);
      var union := a.Area() + b.Area() - i.Area();
      assert union > 0.0;
      assert i.Area() / union == 1.0;
      assert i.Area() == union;
      assert i.Area() == a.Area() && i.Area() == b.Area();
      SameAreaSameBox(a, i);
      SameAreaSameBox(b, i);
    }
  }

  /** A box's intersection with another box that has the box's full area is
      the box itself. */
  lemma SameAreaSameBox(a: Box, i: Box)
    requires a.x1 <= i.x1 < i.x2 <= a.x2
    requires a.y1 <= i.y1 < i.y2 <= a.y2
    requires i.Area() == a.Area()
    ensures i == a
  {
    var w, h, W, H := i.Width(), i.Height(), a.Width(), a.Height();
    assert 0.0 < w <= W && 0.0 < h <= H && w * h == W * H;
    AreaDeterminesSides(w, h, W, H);
  }

  /** A rectangle inside another with the same area has the same sides. */
  lemma AreaDeterminesSides(w: real, h: real, W: real, H: real)
    requires 0.0 < w <= W && 0.0 < h <= H && w * h == W * H
    ensures w == W && h == H
  {
    if w < W {
      MulMonotone(W, h, W, H);
    }
    if h < H {
      MulMonotone(w, H, W, H);
    }
  }

  /** Boxes separated on either axis, even when they only touch, have overlap 0. */
  lemma DisjointHasZeroOverlap(a: Box, b: Box)
    requires a.x2 <= b.x1 || b.x2 <= a.x1 || a.y2 <= b.y1 || b.y2 <= a.y1
    ensures CalculateOverlap(a, b) == 0.0
  {
  }

  /** Multiplying by a positive factor keeps a strict order. */
  lemma MulStrict(a: real, b: real, c: real)
    requires a > 0.0 && b < c
    ensures a * b < a * c
  {
    assert a * (c - b) > 0.0;
  }

  /** A ratio bound `lo < w / h < hi` with positive `h`, without division. */
  lemma RatioBounds(w: real, h: real, lo: real, hi: real)
    requires h > 0.0 && lo < w / h < hi
    ensures lo * h < w < hi * h
  {
    var q := w / h;
    assert w == q * h;
    MulStrict(h, lo, q);
    MulStrict(h, q, hi);
  }

  /** `w < k * h` and `w * h < area` give `w * w < k * area`. */
  lemma SquareBound(w: real, h: real, k: real, area: real)
    requires w > 0.0 && k > 0.0 && w < k * h && w * h < area
    ensures w * w < k * area
  {
    MulStrict(w, w, k * h);
    assert w * (k * h) == k * (w * h);
    MulStrict(k, w * h, area);
  }

  /** A positive number whose square is below `bound * bound` is below `bound`. */
  lemma BelowIfSquareBelow(w: real, bound: real)
    requires w > 0.0 && bound > 0.0 && w * w < bound * bound
    ensures w < bound
  {
  }
}

=== FILE: goal_fusion.dfy ===
/** Goal deduplication (`_filter_goal_detections` in
    ai_model/soccer_detector.py): a stable sort by descending confidence,
    greedy non-maximum suppression at overlap above 0.5, and a cap of three. */
module GoalFusion {
  import opened Geometry
  import opened Detections
  import opened Ranking

  /** Candidates overlapping a kept one by more than this are duplicates. */
  const DuplicateOverlap: real := 0.5

  /** At most this many goals leave the filter. */
  const MaxGoals: nat := 3

  /** Some kept goal overlaps `g` by more than `DuplicateOverlap`. */
  predicate IsDuplicate(g: Detection, kept: seq<Detection>) {
    exists i :: 0 <= i < |kept| && CalculateOverlap(g.box, kept[i].box) > DuplicateOverlap
  }

  /** No two distinct positions of `s` overlap by more than `DuplicateOverlap`. */
  ghost predicate Separated(s: seq<Detection>) {
    forall i, j :: 0 <= i < |s| && 0 <= j < |s| && i != j ==>
      CalculateOverlap(s[i].box, s[j].box) <= DuplicateOverlap
  }

  /** The suppression loop: each candidate, in order, is appended to `kept`
      unless it duplicates a goal already kept. */
  function Suppress(s: seq<Detection>, kept: seq<Detection>): seq<Detection>
    decreases |s|
  {
    if |s| == 0 then kept
    else if IsDuplicate(s[0], kept) then Suppress(s[1..], kept)
    else Suppress(s[1..], kept + [s[0]])
  }

  /** `_filter_goal_detections`. */
  function FilterGoalDetections(goals: seq<Detection>): seq<Detection>
  {
    if |goals| == 0 then []
    else Take(Suppress(SortDesc(goals, Conf), []), MaxGoals)
  }

  /** Suppression extends `kept` with a subsequence of its input, keeps the
      result separated, and accounts for every candidate: each one is kept or
      is a duplicate of a kept goal. */
  lemma {:induction false} SuppressFacts(s: seq<Detection>, kept: seq<Detection>)
    requires Separated(kept)
    ensures var r := Suppress(s, kept);
      && Separated(r)
      && |r| >= |kept| && r[..|kept|] == kept
      && IsSubsequence(r[|kept|..], s)
      && (forall x :: x in s ==> x in r || IsDuplicate(x, r))
    decreases |s|
  {
    var r := Suppress(s, kept);
    if |s| == 0 {
      EmptySubsequence(s);
      assert r[|kept|..] == [];
    } else if IsDuplicate(s[0], kept) {
      SuppressFacts(s[1..], kept);
      SubsequenceCons(r[|kept|..], s);
      DuplicateGrows(s[0], kept, r);
    } else {
      var kept' := kept + [s[0]];
      forall i, j | 0 <= i < |kept'| && 0 <= j < |kept'| && i != j
        ensures CalculateOverlap(kept'[i].box, kept'[j].box) <= DuplicateOverlap
      {
        if i == |kept| {
          assert CalculateOverlap(s[0].box, kept[j].box) <= DuplicateOverlap;
        } else if j == |kept| {
          OverlapSymmetric(kept[i].box, s[0].box);
          assert CalculateOverlap(s[0].box, kept[i].box) <= DuplicateOverlap;
        }
      }
      SuppressFacts(s[1..], kept');
      assert r[..|kept|] == r[..|kept'|][..|kept|];
      assert r[|kept|..] == [s[0]] + r[|kept'|..];
      SubsequenceCons(r[|kept'|..], s);
      assert s[0] in r by { assert r[|kept|] == s[0]; }
    }
  }

  /** A duplicate of a prefix is a duplicate of the whole. */
  lemma DuplicateGrows(g: Detection, kept: seq<Detection>, r: seq<Detection>)
    requires IsDuplicate(g, kept)
    requires |r| >= |kept| && r[..|kept|] == kept
    ensures IsDuplicate(g, r)
  {
    var i :| 0 <= i < |kept| && CalculateOverlap(g.box, kept[i].box) > DuplicateOverlap;
    assert r[i] == kept[i];
  }

  /** The first candidate is never a duplicate, so it is always kept first. */
  lemma SuppressKeepsFirst(s: seq<Detection>)
    requires |s| > 0
    ensures |Suppress(s, [])| > 0 && Suppress(s, [])[0] == s[0]
  {
    assert !IsDuplicate(s[0], []);
    assert [] + [s[0]] == [s[0]];
    assert Suppress(s, []) == Suppress(s[1..], [s[0]]);
    SuppressFacts(s[1..], [s[0]]);
  }

  /** A prefix of a separated sequence is separated. */
  lemma TakeSeparated(s: seq<Detection>, n: nat)
    requires Separated(s)
    ensures Separated(Take(s, n))
  {
  }

  /** `_filter_goal_detections` keeps nothing exactly when given nothing,
      at most three goals, and no two kept goals overlap by more than 0.5. */
  lemma FilterGoalDetectionsSeparated(goals: seq<Detection>)
    ensures var r := FilterGoalDetections(goals);
      && (|goals| == 0 <==> |r| == 0)
      && |r| <= MaxGoals
      && Separated(r)
  {
    if |goals| > 0 {
      var sorted := SortDesc(goals, Conf);
      var kept := Suppress(sorted, []);
      SuppressFacts(sorted, []);
      TakeSeparated(kept, MaxGoals);
      SuppressKeepsFirst(sorted);
    }
  }

  /** The kept goals appear in the order of the confidence-sorted input, so
      their confidences never increase, and each comes from the input. */
  lemma FilterGoalDetectionsOrder(goals: seq<Detection>)
    ensures var r := FilterGoalDetections(goals);
      && IsSubsequence(r, SortDesc(goals, Conf))
      && SortedDesc(r, Conf)
      && (forall g :: g in r ==> g in goals)
  {
    var r := FilterGoalDetections(goals);
    var sorted := SortDesc(goals, Conf);
    SortDescFacts(goals, Conf);
    SortDescElements(goals, Conf);
    if |goals| == 0 {
      EmptySubsequence(sorted);
    } else {
      var kept := Suppress(sorted, []);
      SuppressFacts(sorted, []);
      assert kept[0..] == kept;
      TakeIsSubsequence(kept, MaxGoals);
      SubsequenceTransitive(r, kept, sorted);
    }
    SubsequenceSorted(r, sorted, Conf);
    SubsequenceElements(r, sorted);
  }

  /** The first kept goal has the highest confidence of all candidates. */
  lemma FilterGoalDetectionsLeader(goals: seq<Detection>)
    requires |goals| > 0
    ensures var r := FilterGoalDetections(goals);
      |r| > 0 && forall g :: g in goals ==> Conf(g) <= Conf(r[0])
  {
    var sorted := SortDesc(goals, Conf);
    var r := FilterGoalDetections(goals);
    SortDescFacts(goals, Conf);
    SortDescElements(goals, Conf);
    SuppressKeepsFirst(sorted);
    assert r[0] == sorted[0];
    forall g | g in goals
      ensures Conf(g) <= Conf(r[0])
    {
      assert g in sorted;
      var i :| 0 <= i < |sorted| && sorted[i] == g;
    }
  }

  /** Greedy suppression is maximal before the cap: every candidate that was
      dropped overlaps a kept goal by more than 0.5. */
  lemma SuppressionIsMaximal(goals: seq<Detection>)
    ensures var kept := Suppress(SortDesc(goals, Conf), []);
      forall g :: g in goals ==> g in kept || IsDuplicate(g, kept)
  {
    SortDescElements(goals, Conf);
    SuppressFacts(SortDesc(goals, Conf), []);
  }
}

=== FILE: goal_generators.dfy ===
/** Geometric goal candidates in ai_model/soccer_detector.py: rectangles
    formed from a vertical and a horizontal Hough segment, rectangles
    formed from four corner points, the first-match contour test, their
    fusion in `detect_goal_advanced`, and the goal area spanned by posts in
    `detect_rectangular_goal`. The image operations that produce segments,
    corner points and contours are outside the model: their outputs arrive
    as inputs. */
module GoalGenerators {
  import opened Wrappers
  import opened Geometry
  import opened Detections
  import opened Ranking
  import opened Combinations
  import opened GoalFusion

  /** A pixel position as OpenCV returns it. */
  datatype IntPoint = IntPoint(x: int, y: int)

  function ToPoint(p: IntPoint): Point {
    Point(p.x as real, p.y as real)
  }

  /** The orientation class the angle test of `_analyze_lines_for_rectangles`
      assigns: within 15 degrees of horizontal, within (75, 105) degrees of
      vertical, or neither. */
  datatype Orientation = Horizontal | Vertical | Oblique

  /** A Hough segment `(x1, y1, x2, y2)`. */
  datatype Segment = Segment(x1: int, y1: int, x2: int, y2: int)

  /** A classified segment with its Euclidean length. */
  datatype Line = Line(seg: Segment, orientation: Orientation, length: real)

  /** The first two entries of `frame.shape`. */
  datatype FrameShape = FrameShape(height: nat, width: nat)

  /** The record both rectangle builders return: box, confidence, centre and
      corner points. */
  datatype Rectangle = Rectangle(box: Box, confidence: real, center: Point, corners: seq<IntPoint>)

  /** A segment must be longer than this to take part in a rectangle. */
  const MinLineLength: real := 30.0

  /** Confidence of a rectangle formed from two segments. */
  const LineRectConfidence: real := 0.7

  /** Confidence of a rectangle formed from four corner points. */
  const CornerRectConfidence: real := 0.6

  /** The size test both builders share: width in (50, 0.8 * frame width),
      height in (30, 0.8 * frame height). */
  predicate SizeOk(w: real, h: real, frame: FrameShape) {
    && 50.0 < w < (frame.width as real) * 0.8
    && 30.0 < h < (frame.height as real) * 0.8
  }

  /** The smallest entry of a non-empty sequence. */
  function MinOf(s: seq<int>): (m: int)
    requires |s| > 0
    ensures m in s && forall v :: v in s ==> m <= v
  {
    if |s| == 1 then s[0]
    else
      var rest := MinOf(s[1..]);
      assert forall v :: v in s[1..] ==> v in s;
      assert forall v :: v in s ==> v == s[0] || v in s[1..];
      if s[0] <= rest then s[0] else rest
  }

  /** The largest entry of a non-empty sequence. */
  function MaxOf(s: seq<int>): (m: int)
    requires |s| > 0
    ensures m in s && forall v :: v in s ==> v <= m
  {
    if |s| == 1 then s[0]
    else
      var rest := MaxOf(s[1..]);
      assert forall v :: v in s[1..] ==> v in s;
      assert forall v :: v in s ==> v == s[0] || v in s[1..];
      if s[0] >= rest then s[0] else rest
  }

  function Xs(pts: seq<IntPoint>): seq<int> {
    seq(|pts|, i requires 0 <= i < |pts| => pts[i].x)
  }

  function Ys(pts: seq<IntPoint>): seq<int> {
    seq(|pts|, i requires 0 <= i < |pts| => pts[i].y)
  }

  /** `b` is the smallest axis-aligned box around `pts`: every point lies in
      it and every side passes through some point. */
  ghost predicate IsBoundingBox(pts: seq<IntPoint>, b: Box) {
    && (forall p :: p in pts ==> b.x1 <= p.x as real <= b.x2 && b.y1 <= p.y as real <= b.y2)
    && (exists p :: p in pts && p.x as real == b.x1)
    && (exists p :: p in pts && p.x as real == b.x2)
    && (exists p :: p in pts && p.y as real == b.y1)
    && (exists p :: p in pts && p.y as real == b.y2)
  }

  /** The min/max box of a non-empty point list, as both builders compute it. */
  function BoundsOf(pts: seq<IntPoint>): (b: Box)
    requires |pts| > 0
    ensures IsBoundingBox(pts, b)
  {
    var xs, ys := Xs(pts), Ys(pts);
    assert forall p :: p in pts ==> p.x in xs && p.y in ys by {
      forall p | p in pts
        ensures p.x in xs && p.y in ys
      {
        var i :| 0 <= i < |pts| && pts[i] == p;
        assert xs[i] == p.x && ys[i] == p.y;
      }
    }
    var x1, x2, y1, y2 := MinOf(xs), MaxOf(xs), MinOf(ys), MaxOf(ys);
    var i1 :| 0 <= i1 < |xs| && xs[i1] == x1;
    var i2 :| 0 <= i2 < |xs| && xs[i2] == x2;
    var j1 :| 0 <= j1 < |ys| && ys[j1] == y1;
    var j2 :| 0 <= j2 < |ys| && ys[j2] == y2;
    assert pts[i1] in pts && pts[i2] in pts && pts[j1] in pts && pts[j2] in pts;
    Box(x1 as real, y1 as real, x2 as real, y2 as real)
  }

  /** The bounding box of a point list is unique. */
  lemma BoundingBoxUnique(pts: seq<IntPoint>, a: Box, b: Box)
    requires IsBoundingBox(pts, a) && IsBoundingBox(pts, b)
    ensures a == b
  {
    var p1 :| p1 in pts && p1.x as real == a.x1;
    var p2 :| p2 in pts && p2.x as real == b.x1;
    var p3 :| p3 in pts && p3.x as real == a.x2;
    var p4 :| p4 in pts && p4.x as real == b.x2;
    var p5 :| p5 in pts && p5.y as real == a.y1;
    var p6 :| p6 in pts && p6.y as real == b.y1;
    var p7 :| p7 in pts && p7.y as real == a.y2;
    var p8 :| p8 in pts && p8.y as real == b.y2;
  }

  /** The integer corner `(x, y)` of a box with integral sides. */
  function Corner(x: real, y: real): IntPoint {
    IntPoint(x.Floor, y.Floor)
  }

  /** `corners` lists the box's corners top-left, top-right, bottom-right,
      bottom-left. */
  ghost predicate ClockwiseCorners(corners: seq<IntPoint>, b: Box) {
    && |corners| == 4
    && ToPoint(corners[0]) == Point(b.x1, b.y1)
    && ToPoint(corners[1]) == Point(b.x2, b.y1)
    && ToPoint(corners[2]) == Point(b.x2, b.y2)
    && ToPoint(corners[3]) == Point(b.x1, b.y2)
  }

  /** The four endpoints of a vertical and a horizontal segment. */
  function Endpoints(v: Segment, h: Segment): seq<IntPoint> {
    [IntPoint(v.x1, v.y1), IntPoint(v.x2, v.y2), IntPoint(h.x1, h.y1), IntPoint(h.x2, h.y2)]
  }

  /** `_try_form_rectangle`: the bounding box of the four endpoints, kept when
      its size is plausible for a goal. */
  function TryFormRectangle(v: Segment, h: Segment, frame: FrameShape): (r: Option<Rectangle>)
    ensures r.Some? ==>
      && SizeOk(r.value.box.Width(), r.value.box.Height(), frame)
      && r.value.confidence == LineRectConfidence
      && r.value.center == r.value.box.Center()
      && ClockwiseCorners(r.value.corners, r.value.box)
  {
    var b := BoundsOf(Endpoints(v, h));
    if SizeOk(b.Width(), b.Height(), frame) then
      var corners := [Corner(b.x1, b.y1), Corner(b.x2, b.y1), Corner(b.x2, b.y2), Corner(b.x1, b.y2)];
      assert b.x1.Floor as real == b.x1 && b.x2.Floor as real == b.x2;
      assert b.y1.Floor as real == b.y1 && b.y2.Floor as real == b.y2;
      Some(Rectangle(b, LineRectConfidence, b.Center(), corners))
    else
      None
  }

  /** A rectangle is formed exactly when the bounding box of the four
      endpoints has a plausible size, and that box is the rectangle's. */
  lemma TryFormRectangleBox(v: Segment, h: Segment, frame: FrameShape)
    ensures forall b :: IsBoundingBox(Endpoints(v, h), b) ==>
      (TryFormRectangle(v, h, frame).Some? <==> SizeOk(b.Width(), b.Height(), frame))
    ensures TryFormRectangle(v, h, frame).Some? ==> IsBoundingBox(Endpoints(v, h), TryFormRectangle(v, h, frame).value.box)
  {
    var b := BoundsOf(Endpoints(v, h));
    forall b' | IsBoundingBox(Endpoints(v, h), b')
      ensures b' == b
    {
      BoundingBoxUnique(Endpoints(v, h), b, b');
    }
  }

  /** The segments of one orientation, in input order. */
  function WithOrientation(lines: seq<Line>, o: Orientation): (r: seq<Line>)
    ensures forall l :: l in r <==> l in lines && l.orientation == o
    ensures |r| <= |lines|
  {
    if |lines| == 0 then []
    else
      var rest := WithOrientation(lines[1..], o);
      assert forall l :: l in lines <==> l == lines[0] || l in lines[1..];
      if lines[0].orientation == o then [lines[0]] + rest else rest
  }

  /** `[r]` for `Some(r)`, `[]` for `None`. */
  function OptionToSeq<T>(o: Option<T>): (r: seq<T>)
    ensures o.Some? ==> r == [o.value]
    ensures o.None? ==> r == []
  {
    if o.Some? then [o.value] else []
  }

  /** The inner loop: one vertical segment against every horizontal one. */
  function RowRectangles(v: Line, hs: seq<Line>, frame: FrameShape): (r: seq<Rectangle>)
    ensures |r| <= |hs|
  {
    if |hs| == 0 then [] else PairRectangle(v, hs[0], frame) + RowRectangles(v, hs[1..], frame)
  }

  /** The body of the inner loop: both segments longer than 30, then
      `_try_form_rectangle`. */
  function PairRectangle(v: Line, h: Line, frame: FrameShape): (r: seq<Rectangle>)
    ensures |r| <= 1
  {
    if v.length > MinLineLength && h.length > MinLineLength
    then OptionToSeq(TryFormRectangle(v.seg, h.seg, frame)) else []
  }

  /** The outer loop over vertical segments. */
  function PairRectangles(vs: seq<Line>, hs: seq<Line>, frame: FrameShape): seq<Rectangle> {
    if |vs| == 0 then []
    else RowRectangles(vs[0], hs, frame) + PairRectangles(vs[1..], hs, frame)
  }

  /** At most one rectangle per pair of segments. */
  lemma {:induction false} PairCount(vs: seq<Line>, hs: seq<Line>, frame: FrameShape)
    ensures |PairRectangles(vs, hs, frame)| <= |vs| * |hs|
  {
    if |vs| > 0 {
      var tail := vs[1..];
      PairCount(tail, hs, frame);
      assert |tail| == |vs| - 1;
      ProductStep(|vs|, |hs|, |RowRectangles(vs[0], hs, frame)|, |PairRectangles(tail, hs, frame)|);
    }
  }

  /** One more row of at most `b` rectangles stays within `a * b`. */
  lemma ProductStep(a: nat, b: nat, row: nat, rest: nat)
    requires a > 0 && row <= b && rest <= (a - 1) * b
    ensures row + rest <= a * b
  {
    assert a * b == b + (a - 1) * b;
  }

  /** `_analyze_lines_for_rectangles`: every long vertical segment paired with
      every long horizontal one, vertical-major. */
  function AnalyzeLinesForRectangles(lines: seq<Line>, frame: FrameShape): seq<Rectangle> {
    PairRectangles(WithOrientation(lines, Vertical), WithOrientation(lines, Horizontal), frame)
  }

  /** `r` is what `_try_form_rectangle` makes of a long vertical and a long
      horizontal segment of `lines`. */
  ghost predicate FormedFromPair(r: Rectangle, lines: seq<Line>, frame: FrameShape) {
    exists v, h :: v in lines && h in lines
      && v.orientation == Vertical && h.orientation == Horizontal
      && PairForms(v, h, frame, r)
  }

  /** `_try_form_rectangle` makes `r` of two segments both longer than 30. */
  ghost predicate PairForms(v: Line, h: Line, frame: FrameShape, r: Rectangle) {
    v.length > MinLineLength && h.length > MinLineLength && TryFormRectangle(v.seg, h.seg, frame) == Some(r)
  }

  /** The rectangle the inner loop forms from `v` and `h`. */
  lemma PairFormsHere(v: Line, h: Line, frame: FrameShape, r: Rectangle)
    ensures PairForms(v, h, frame, r) <==> r in PairRectangle(v, h, frame)
  {
  }

  lemma {:induction false} RowMembers(v: Line, hs: seq<Line>, frame: FrameShape)
    ensures forall r :: r in RowRectangles(v, hs, frame) <==> exists h :: h in hs && PairForms(v, h, frame, r)
  {
    if |hs| > 0 {
      var tail := hs[1..];
      RowMembers(v, tail, frame);
      assert RowRectangles(v, hs, frame) == PairRectangle(v, hs[0], frame) + RowRectangles(v, tail, frame);
      forall r
        ensures r in RowRectangles(v, hs, frame) <==> exists h :: h in hs && PairForms(v, h, frame, r)
      {
        PairFormsHere(v, hs[0], frame, r);
        if exists h :: h in hs && PairForms(v, h, frame, r) {
          var h :| h in hs && PairForms(v, h, frame, r);
          if h != hs[0] {
            assert h in tail;
          }
        }
      }
    }
  }

  lemma {:induction false} PairMembers(vs: seq<Line>, hs: seq<Line>, frame: FrameShape)
    ensures forall r :: r in PairRectangles(vs, hs, frame) <==>
      exists v, h :: v in vs && h in hs && PairForms(v, h, frame, r)
  {
    if |vs| > 0 {
      PairMembers(vs[1..], hs, frame);
      RowMembers(vs[0], hs, frame);
      assert forall v :: v in vs <==> v == vs[0] || v in vs[1..];
    }
  }

  /** The line-pair rectangles are exactly those `_try_form_rectangle` forms
      from a vertical and a horizontal segment both longer than 30; there are
      at most `|vertical| * |horizontal|` of them. */
  lemma AnalyzeLinesMembers(lines: seq<Line>, frame: FrameShape)
    ensures forall r :: r in AnalyzeLinesForRectangles(lines, frame) <==> FormedFromPair(r, lines, frame)
    ensures |AnalyzeLinesForRectangles(lines, frame)|
      <= |WithOrientation(lines, Vertical)| * |WithOrientation(lines, Horizontal)|
  {
    var vs, hs := WithOrientation(lines, Vertical), WithOrientation(lines, Horizontal);
    PairMembers(vs, hs, frame);
    PairCount(vs, hs, frame);
    forall r
      ensures r in AnalyzeLinesForRectangles(lines, frame) <==> FormedFromPair(r, lines, frame)
    {
      if FormedFromPair(r, lines, frame) {
        var v, h :| v in lines && h in lines
          && v.orientation == Vertical && h.orientation == Horizontal
          && PairForms(v, h, frame, r);
        assert v in vs && h in hs;
      }
    }
  }

  /** Every line-pair rectangle has a plausible size, confidence 0.7, and
      its corners in the order top-left, top-right, bottom-right,
      bottom-left. */
  lemma AnalyzeLinesShape(lines: seq<Line>, frame: FrameShape)
    ensures forall r :: r in AnalyzeLinesForRectangles(lines, frame) ==>
      && SizeOk(r.box.Width(), r.box.Height(), frame)
      && r.confidence == LineRectConfidence
      && ClockwiseCorners(r.corners, r.box)
  {
    AnalyzeLinesMembers(lines, frame);
  }

  /** `_check_four_points_rectangle`: the bounding box of exactly four points,
      kept when its size is plausible; the corners are the points themselves. */
  function CheckFourPointsRectangle(points: seq<IntPoint>, frame: FrameShape): (r: Option<Rectangle>)
    ensures |points| != 4 ==> r == None
    ensures r.Some? ==>
      && SizeOk(r.value.box.Width(), r.value.box.Height(), frame)
      && r.value.confidence == CornerRectConfidence
      && r.value.center == r.value.box.Center()
      && r.value.corners == points
  {
    if |points| != 4 then None
    else
      var b := BoundsOf(points);
      if SizeOk(b.Width(), b.Height(), frame) then
        Some(Rectangle(b, CornerRectConfidence, b.Center(), points))
      else
        None
  }

  /** Four points form a rectangle exactly when their bounding box has a
      plausible size, and that box is the rectangle's. */
  lemma CheckFourPointsBox(points: seq<IntPoint>, frame: FrameShape)
    requires |points| == 4
    ensures forall b :: IsBoundingBox(points, b) ==>
      (CheckFourPointsRectangle(points, frame).Some? <==> SizeOk(b.Width(), b.Height(), frame))
    ensures CheckFourPointsRectangle(points, frame).Some? ==>
      IsBoundingBox(points, CheckFourPointsRectangle(points, frame).value.box)
  {
    var b := BoundsOf(points);
    forall b' | IsBoundingBox(points, b')
      ensures b' == b
    {
      BoundingBoxUnique(points, b, b');
    }
  }

  /** The corner points at the indices of `t`. Every quadruple the loops
      visit is in range (`QuadrupleIncreasing`), so the placeholder for an
      out-of-range index is never used. */
  function Pick(corners: seq<IntPoint>, t: seq<nat>): (r: seq<IntPoint>)
    ensures |r| == |t|
    ensures forall i :: 0 <= i < |t| && t[i] < |corners| ==> r[i] == corners[t[i]]
  {
    seq(|t|, i requires 0 <= i < |t| => if t[i] < |corners| then corners[t[i]] else IntPoint(0, 0))
  }

  /** The rectangle each index tuple yields, in tuple order. */
  function CollectRectangles(ts: seq<seq<nat>>, corners: seq<IntPoint>, frame: FrameShape): (r: seq<Rectangle>)
    ensures |r| <= |ts|
  {
    if |ts| == 0 then []
    else
      OptionToSeq(CheckFourPointsRectangle(Pick(corners, ts[0]), frame))
        + CollectRectangles(ts[1..], corners, frame)
  }

  /** `_find_rectangles_from_corners`: every quadruple `i < j < k < l` of
      corner indices, in loop order, checked as a rectangle. */
  function FindRectanglesFromCorners(corners: seq<IntPoint>, frame: FrameShape): seq<Rectangle> {
    if |corners| >= 4 then
      CollectRectangles(Combos(0, |corners|, 4), corners, frame)
    else []
  }

  /** Every collected rectangle comes from one of the tuples. */
  lemma {:induction false} CollectedFrom(ts: seq<seq<nat>>, corners: seq<IntPoint>, frame: FrameShape, r: Rectangle)
    ensures r in CollectRectangles(ts, corners, frame) ==>
      exists q :: q in ts && CheckFourPointsRectangle(Pick(corners, q), frame) == Some(r)
  {
    if r in CollectRectangles(ts, corners, frame) {
      assert ts[0] in ts;
      var here := OptionToSeq(CheckFourPointsRectangle(Pick(corners, ts[0]), frame));
      if r !in here {
        CollectedFrom(ts[1..], corners, frame, r);
        var q :| q in ts[1..] && CheckFourPointsRectangle(Pick(corners, q), frame) == Some(r);
        assert q in ts;
      }
    }
  }

  /** Every tuple whose points pass the check is collected. */
  lemma {:induction false} CollectedHas(ts: seq<seq<nat>>, corners: seq<IntPoint>, frame: FrameShape, q: seq<nat>)
    requires q in ts
    ensures CheckFourPointsRectangle(Pick(corners, q), frame).Some? ==>
      CheckFourPointsRectangle(Pick(corners, q), frame).value in CollectRectangles(ts, corners, frame)
  {
    assert ts[0] in ts;
    if q != ts[0] {
      CollectedHas(ts[1..], corners, frame, q);
    }
  }

  /** The four corners at increasing indices `i < j < k < l`. */
  ghost predicate FromIncreasingQuadruple(r: Rectangle, corners: seq<IntPoint>) {
    exists i, j, k, l :: 0 <= i < j < k < l < |corners|
      && r.corners == [corners[i], corners[j], corners[k], corners[l]]
  }

  lemma QuadrupleIncreasing(n: nat, q: seq<nat>)
    requires q in Combos(0, n, 4)
    ensures |q| == 4 && q[0] < q[1] < q[2] < q[3] < n
  {
    CombosSound(0, n, 4, q);
  }

  /** Fewer than four corners yield nothing, and at most C(n, 4) rectangles
      come out of `n` corners. */
  lemma FindRectanglesCount(corners: seq<IntPoint>, frame: FrameShape)
    ensures |corners| < 4 ==> FindRectanglesFromCorners(corners, frame) == []
    ensures |FindRectanglesFromCorners(corners, frame)| <= Choose(|corners|, 4)
  {
    if |corners| >= 4 {
      QuadrupleCount(|corners|);
    }
  }

  /** The points at four in-range indices. */
  lemma PickQuadruple(corners: seq<IntPoint>, q: seq<nat>)
    requires |q| == 4 && q[0] < q[1] < q[2] < q[3] < |corners|
    ensures Pick(corners, q) == [corners[q[0]], corners[q[1]], corners[q[2]], corners[q[3]]]
  {
  }

  lemma QuadrupleWitness(corners: seq<IntPoint>, r: Rectangle, i: nat, j: nat, k: nat, l: nat)
    requires i < j < k < l < |corners|
    requires r.corners == [corners[i], corners[j], corners[k], corners[l]]
    ensures FromIncreasingQuadruple(r, corners)
  {
  }

  /** A rectangle checked from a visited quadruple. */
  lemma CheckedQuadruple(corners: seq<IntPoint>, frame: FrameShape, r: Rectangle, q: seq<nat>)
    requires q in Combos(0, |corners|, 4)
    ensures CheckFourPointsRectangle(Pick(corners, q), frame) == Some(r) ==>
      && FromIncreasingQuadruple(r, corners)
      && IsBoundingBox(r.corners, r.box) && r.confidence == CornerRectConfidence
      && SizeOk(r.box.Width(), r.box.Height(), frame)
  {
    if CheckFourPointsRectangle(Pick(corners, q), frame) == Some(r) {
      QuadrupleIncreasing(|corners|, q);
      PickQuadruple(corners, q);
      QuadrupleWitness(corners, r, q[0], q[1], q[2], q[3]);
      CheckFourPointsBox(Pick(corners, q), frame);
    }
  }

  /** Each corner rectangle has a plausible size, confidence 0.6, and four
      input points at strictly increasing indices as its corners, whose
      bounding box it is. */
  lemma FindRectanglesSound(corners: seq<IntPoint>, frame: FrameShape, r: Rectangle)
    ensures r in FindRectanglesFromCorners(corners, frame) ==>
      && SizeOk(r.box.Width(), r.box.Height(), frame)
      && IsBoundingBox(r.corners, r.box)
      && r.confidence == CornerRectConfidence
      && FromIncreasingQuadruple(r, corners)
  {
    if r in FindRectanglesFromCorners(corners, frame) {
      var ts := Combos(0, |corners|, 4);
      CollectedFrom(ts, corners, frame, r);
      var q :| q in ts && CheckFourPointsRectangle(Pick(corners, q), frame) == Some(r);
      CheckedQuadruple(corners, frame, r, q);
    }
  }

  /** Every quadruple of corners at increasing indices whose bounding box has
      a plausible size yields its rectangle. */
  lemma FindRectanglesComplete(corners: seq<IntPoint>, frame: FrameShape, i: nat, j: nat, k: nat, l: nat)
    requires i < j < k < l < |corners|
    ensures CheckFourPointsRectangle([corners[i], corners[j], corners[k], corners[l]], frame).Some? ==>
      CheckFourPointsRectangle([corners[i], corners[j], corners[k], corners[l]], frame).value
        in FindRectanglesFromCorners(corners, frame)
  {
    var q: seq<nat> := [i, j, k, l];
    QuadrupleVisited(|corners|, i, j, k, l);
    PickQuadruple(corners, q);
    CollectedHas(Combos(0, |corners|, 4), corners, frame, q);
  }

  /** The loops visit every increasing index quadruple. */
  lemma QuadrupleVisited(n: nat, i: nat, j: nat, k: nat, l: nat)
    requires i < j < k < l < n
    ensures [i, j, k, l] in Combos(0, n, 4)
  {
    var q: seq<nat> := [i, j, k, l];
    assert IncreasingIn(q, 0, n);
    CombosComplete(0, n, q);
  }

  /** What the contour pipeline hands to the acceptance test: the contour
      area, the approximating polygon and the bounding rectangle
      `(x, y, w, h)`. */
  datatype ContourSummary = ContourSummary(area: real, approx: seq<IntPoint>, x: int, y: int, w: int, h: int)

  /** The contour reaches the aspect test: area in (1000, 50000) and at least
      four polygon vertices. */
  predicate ReachesAspectTest(c: ContourSummary) {
    1000.0 < c.area < 50000.0 && |c.approx| >= 4
  }

  /** Python divides by the bounding height only past the first two tests. */
  predicate ContourDivisionSafe(c: ContourSummary) {
    ReachesAspectTest(c) ==> c.h != 0
  }

  /** The acceptance test of `_detect_goal_by_contours_fast`. */
  predicate IsGoalContour(c: ContourSummary)
    requires ContourDivisionSafe(c)
  {
    ReachesAspectTest(c) && 0.8 < (c.w as real) / (c.h as real) < 3.0
  }

  /** The goal detection an accepted contour becomes. */
  function ContourGoal(c: ContourSummary): (d: Detection)
    ensures d.className == Goal && d.source == ContourFast
    ensures d.box == Box(c.x as real, c.y as real, (c.x + c.w) as real, (c.y + c.h) as real)
    ensures d.center == d.box.Center()
    ensures |d.corners| == |c.approx|
  {
    var b := Box(c.x as real, c.y as real, (c.x + c.w) as real, (c.y + c.h) as real);
    Detection(b, Min(0.8, c.area / 15000.0), Goal,
      Point(c.x as real + (c.w as real) / 2.0, c.y as real + (c.h as real) / 2.0),
      ContourFast, seq(|c.approx|, i requires 0 <= i < |c.approx| => ToPoint(c.approx[i])), None)
  }

  ghost predicate AllContoursDivisionSafe(cs: seq<ContourSummary>) {
    forall c :: c in cs ==> ContourDivisionSafe(c)
  }

  /** `_detect_goal_by_contours_fast` after `findContours`: the first
      accepted contour, if any. */
  function DetectGoalByContoursFast(cs: seq<ContourSummary>): (r: seq<Detection>)
    requires AllContoursDivisionSafe(cs)
    ensures |r| <= 1
    ensures forall d :: d in r ==> d.className == Goal && d.source == ContourFast
  {
    if |cs| == 0 then []
    else if IsGoalContour(cs[0]) then [ContourGoal(cs[0])]
    else
      assert forall c :: c in cs[1..] ==> c in cs;
      DetectGoalByContoursFast(cs[1..])
  }

  /** The contour stage yields a goal exactly when some contour is accepted,
      and then it is built from the first accepted one; its confidence is
      `min(0.8, area / 15000)`, so it lies in (1/15, 0.8]. */
  lemma {:induction false} ContoursFirstMatch(cs: seq<ContourSummary>)
    requires AllContoursDivisionSafe(cs)
    ensures var r := DetectGoalByContoursFast(cs);
      && (|r| == 1 <==> exists i :: 0 <= i < |cs| && IsGoalContour(cs[i]))
      && (|r| == 1 ==>
            exists i :: 0 <= i < |cs| && IsGoalContour(cs[i]) && r[0] == ContourGoal(cs[i])
              && forall j :: 0 <= j < i ==> !IsGoalContour(cs[j]))
      && (|r| == 1 ==> 1.0 / 15.0 < r[0].confidence <= 0.8)
  {
    if |cs| > 0 {
      assert AllContoursDivisionSafe(cs[1..]) by {
        assert forall c :: c in cs[1..] ==> c in cs;
      }
      if !IsGoalContour(cs[0]) {
        ContoursFirstMatch(cs[1..]);
        var r := DetectGoalByContoursFast(cs);
        if |r| == 1 {
          var i :| 0 <= i < |cs[1..]| && IsGoalContour(cs[1..][i]) && r[0] == ContourGoal(cs[1..][i])
            && forall j :: 0 <= j < i ==> !IsGoalContour(cs[1..][j]);
          assert cs[i + 1] == cs[1..][i];
          forall j | 0 <= j < i + 1
            ensures !IsGoalContour(cs[j])
          {
            if j > 0 {
              assert cs[j] == cs[1..][j - 1];
            }
          }
        }
        if exists i :: 0 <= i < |cs| && IsGoalContour(cs[i]) {
          var i :| 0 <= i < |cs| && IsGoalContour(cs[i]);
          assert cs[1..][i - 1] == cs[i];
        }
      }
    }
  }

  /** `_detect_goal_by_edges_fast` after the Hough transform: every line-pair
      rectangle labelled as a goal. */
  function EdgeGoals(lines: seq<Line>, frame: FrameShape): (r: seq<Detection>)
    ensures |r| == |AnalyzeLinesForRectangles(lines, frame)|
    ensures forall i :: 0 <= i < |r| ==>
      var rect := AnalyzeLinesForRectangles(lines, frame)[i];
      && r[i].box == rect.box && r[i].confidence == rect.confidence
      && r[i].className == Goal && r[i].source == EdgeLinesFast
  {
    var rects := AnalyzeLinesForRectangles(lines, frame);
    seq(|rects|, i requires 0 <= i < |rects| =>
      Detection(rects[i].box, rects[i].confidence, Goal, rects[i].center, EdgeLinesFast,
        seq(|rects[i].corners|, k requires 0 <= k < |rects[i].corners| => ToPoint(rects[i].corners[k])), None))
  }

  /** `detect_goal_advanced`: line-pair goals and the contour goal, deduplicated
      by `_filter_goal_detections`. */
  function DetectGoalAdvanced(lines: seq<Line>, contours: seq<ContourSummary>, frame: FrameShape): seq<Detection>
    requires AllContoursDivisionSafe(contours)
  {
    FilterGoalDetections(EdgeGoals(lines, frame) + DetectGoalByContoursFast(contours))
  }

  /** The fused goals are at most three well-separated candidates, each from
      one of the two generators, with confidence 0.7 for a line pair. */
  lemma DetectGoalAdvancedFacts(lines: seq<Line>, contours: seq<ContourSummary>, frame: FrameShape)
    requires AllContoursDivisionSafe(contours)
    ensures var r := DetectGoalAdvanced(lines, contours, frame);
      && |r| <= MaxGoals
      && Separated(r)
      && SortedDesc(r, Conf)
      && (forall g :: g in r ==> g.className == Goal)
      && (forall g :: g in r && g.source == EdgeLinesFast ==> g.confidence == LineRectConfidence)
  {
    var edges := EdgeGoals(lines, frame);
    var all := edges + DetectGoalByContoursFast(contours);
    FilterGoalDetectionsSeparated(all);
    FilterGoalDetectionsOrder(all);
    AnalyzeLinesShape(lines, frame);
    forall g | g in all
      ensures g.className == Goal
      ensures g.source == EdgeLinesFast ==> g.confidence == LineRectConfidence
    {
      if g in edges {
        var i :| 0 <= i < |edges| && edges[i] == g;
        assert AnalyzeLinesForRectangles(lines, frame)[i] in AnalyzeLinesForRectangles(lines, frame);
      }
    }
  }

  /** The goal area `detect_rectangular_goal` spans between two posts. */
  datatype GoalArea = GoalArea(box: Box, width: real, height: real, posts: seq<Detection>, center: Point, confidence: real)

  /** Sort key for an ascending sort by centre x as a descending sort. */
  function NegCenterX(d: Detection): real { -d.center.x }

  /** `detect_rectangular_goal`: the leftmost and rightmost posts by centre,
      the box from the left post's left edge to the right post's right edge,
      raised by a tenth of its height for the crossbar. */
  function DetectRectangularGoal(posts: seq<Detection>): (r: Option<GoalArea>)
    ensures r.None? <==> |posts| < 2
  {
    if |posts| < 2 then None
    else
      var sorted := SortDesc(posts, NegCenterX);
      var left, right := sorted[0], sorted[|sorted| - 1];
      var leftX, rightX := left.box.x1, right.box.x2;
      var topY := Min(left.box.y1, right.box.y1);
      var bottomY := Max(left.box.y2, right.box.y2);
      var goalWidth, goalHeight := rightX - leftX, bottomY - topY;
      var crossbarY := topY - goalHeight * 0.1;
      Some(GoalArea(
        Box(leftX, crossbarY, rightX, bottomY),
        goalWidth,
        goalHeight + (topY - crossbarY),
        [left, right],
        Point((leftX + rightX) / 2.0, (crossbarY + bottomY) / 2.0),
        Min(left.confidence, right.confidence)))
  }

  /** The posts of the goal area are input posts with the smallest and the
      largest centre x. */
  lemma DetectRectangularGoalPosts(posts: seq<Detection>)
    requires |posts| >= 2
    ensures var g := DetectRectangularGoal(posts).value;
      && |g.posts| == 2 && g.posts[0] in posts && g.posts[1] in posts
      && (forall p :: p in posts ==> g.posts[0].center.x <= p.center.x <= g.posts[1].center.x)
  {
    var sorted := SortDesc(posts, NegCenterX);
    GoalPostsAreEnds(posts);
    SortDescFacts(posts, NegCenterX);
    SortDescElements(posts, NegCenterX);
    SortedEnds(sorted);
  }

  /** The ends of a sequence sorted by descending `NegCenterX`. */
  lemma SortedEnds(sorted: seq<Detection>)
    requires |sorted| > 0 && SortedDesc(sorted, NegCenterX)
    ensures forall p :: p in sorted ==> sorted[0].center.x <= p.center.x <= sorted[|sorted| - 1].center.x
  {
    var n := |sorted|;
    forall p | p in sorted
      ensures sorted[0].center.x <= p.center.x <= sorted[n - 1].center.x
    {
      var i :| 0 <= i < n && sorted[i] == p;
      if 0 < i {
        assert NegCenterX(sorted[0]) >= NegCenterX(sorted[i]);
      }
      if i < n - 1 {
        assert NegCenterX(sorted[i]) >= NegCenterX(sorted[n - 1]);
      }
    }
  }

  /** Ties are broken by input order: the left post is the first, and the
      right post the last, of the input posts sharing its centre x. */
  lemma DetectRectangularGoalTies(posts: seq<Detection>)
    requires |posts| >= 2
    ensures var g := DetectRectangularGoal(posts).value;
      && var leftTies := WithKey(posts, NegCenterX, NegCenterX(g.posts[0]));
      && var rightTies := WithKey(posts, NegCenterX, NegCenterX(g.posts[1]));
      && |leftTies| > 0 && g.posts[0] == leftTies[0]
      && |rightTies| > 0 && g.posts[1] == rightTies[|rightTies| - 1]
  {
    var sorted := SortDesc(posts, NegCenterX);
    GoalPostsAreEnds(posts);
    var left, right := sorted[0], sorted[|sorted| - 1];
    SortDescEnds(posts, NegCenterX);
    var lt := WithKey(posts, NegCenterX, NegCenterX(left));
    var rt := WithKey(posts, NegCenterX, NegCenterX(right));
    assert |lt| > 0 && lt[0] == left;
    assert |rt| > 0 && rt[|rt| - 1] == right;
    var g := DetectRectangularGoal(posts).value;
    assert g.posts[0] == left && g.posts[1] == right;
  }

  /** The two posts are the ends of the posts sorted by centre x. */
  lemma GoalPostsAreEnds(posts: seq<Detection>)
    requires |posts| >= 2
    ensures var sorted := SortDesc(posts, NegCenterX);
      DetectRectangularGoal(posts).value.posts == [sorted[0], sorted[|sorted| - 1]]
  {
  }

  /** The area reaches from the left post's left edge to the right post's
      right edge and down to the lower post bottom; its height is 1.1 times
      the posts' vertical extent, so a band a tenth of that extent above the
      higher post top is left for the crossbar, and the area holds both
      posts vertically. Its recorded width, height and centre are those of
      its box, and its confidence is the weaker post's. */
  lemma DetectRectangularGoalShape(posts: seq<Detection>)
    requires |posts| >= 2
    ensures var g := DetectRectangularGoal(posts).value;
      var left, right := g.posts[0], g.posts[1];
      var top, bottom := Min(left.box.y1, right.box.y1), Max(left.box.y2, right.box.y2);
      && g.box.x1 == left.box.x1 && g.box.x2 == right.box.x2 && g.box.y2 == bottom
      && g.width == g.box.Width() && g.height == g.box.Height()
      && g.height == 1.1 * (bottom - top)
      && top - g.box.y1 == 0.1 * (bottom - top)
      && (top <= bottom ==>
            && g.box.y1 <= left.box.y1 && g.box.y1 <= right.box.y1
            && left.box.y2 <= g.box.y2 && right.box.y2 <= g.box.y2)
      && g.center == g.box.Center()
      && g.confidence == Min(left.confidence, right.confidence)
  {
  }
}

=== FILE: ranking.dfy ===
/** Ordering utilities shared by the detector's filters: Python's stable
    `list.sort(key=..., reverse=True)`, slicing `[:n]`, `max(..., key=...)`,
    and the subsequence relation used to state what a filter keeps. */
module Ranking {

  /** `key(s[i])` never increases along `s`. */
  ghost predicate SortedDesc<T>(s: seq<T>, key: T -> real) {
    forall i, j :: 0 <= i < j < |s| ==> key(s[i]) >= key(s[j])
  }

  /** The elements of `s` whose key equals `k`, in their order in `s`. */
  function WithKey<T>(s: seq<T>, key: T -> real, k: real): seq<T>
  {
    if |s| == 0 then []
    else (if key(s[0]) == k then [s[0]] else []) + WithKey(s[1..], key, k)
  }

  /** Inserts `x` in front of the first element whose key does not exceed
      its own, so `x` precedes every element of `s` with an equal key. */
  function Insert<T>(x: T, s: seq<T>, key: T -> real): (r: seq<T>)
    ensures |r| == |s| + 1
  {
    if |s| == 0 || key(s[0]) <= key(x) then [x] + s
    else [s[0]] + Insert(x, s[1..], key)
  }

  /** Insertion adds exactly `x`. */
  lemma {:induction false} InsertPermutes<T>(x: T, s: seq<T>, key: T -> real)
    ensures multiset(Insert(x, s, key)) == multiset([x] + s)
  {
    if |s| > 0 && key(s[0]) > key(x) {
      InsertPermutes(x, s[1..], key);
      assert s == [s[0]] + s[1..];
    }
  }

  /** Stable sort by descending key: Python's `s.sort(key=key, reverse=True)`,
      which keeps elements with equal keys in their original order. */
  function SortDesc<T>(s: seq<T>, key: T -> real): (r: seq<T>)
    ensures |r| == |s|
  {
    if |s| == 0 then [] else Insert(s[0], SortDesc(s[1..], key), key)
  }

  /** `s[:n]`. */
  function Take<T>(s: seq<T>, n: nat): (r: seq<T>)
    ensures |r| <= n && |r| <= |s|
    ensures |s| <= n ==> r == s
    ensures |s| > n ==> |r| == n
    ensures forall i :: 0 <= i < |r| ==> r[i] == s[i]
  {
    if |s| <= n then s else s[..n]
  }

  /** Index of the element `max(s, key=key)` returns: Python scans left to
      right and replaces its candidate only on a strictly larger key, so this
      is the FIRST element with the largest key. */
  function ArgMax<T>(s: seq<T>, key: T -> real): (m: nat)
    requires |s| > 0
    ensures m < |s|
    ensures forall j :: 0 <= j < |s| ==> key(s[j]) <= key(s[m])
    ensures forall j :: 0 <= j < m ==> key(s[j]) < key(s[m])
  {
    if |s| == 1 then 0
    else
      var m := ArgMax(s[..|s| - 1], key);
      if key(s[|s| - 1]) > key(s[m]) then |s| - 1 else m
  }

  /** `idx` lists, in increasing order, the positions of `b` that spell `a`. */
  ghost predicate Embeds<T>(a: seq<T>, b: seq<T>, idx: seq<int>) {
    && |idx| == |a|
    && (forall i :: 0 <= i < |idx| ==> 0 <= idx[i] < |b| && a[i] == b[idx[i]])
    && (forall i, j :: 0 <= i < j < |idx| ==> idx[i] < idx[j])
  }

  /** `a` is obtained from `b` by deleting elements. */
  ghost predicate IsSubsequence<T>(a: seq<T>, b: seq<T>) {
    exists idx :: Embeds(a, b, idx)
  }

  lemma {:induction false} WithKeyAppend<T>(a: seq<T>, b: seq<T>, key: T -> real, k: real)
    ensures WithKey(a + b, key, k) == WithKey(a, key, k) + WithKey(b, key, k)
  {
    if |a| > 0 {
      var h := if key(a[0]) == k then [a[0]] else [];
      assert (a + b)[0] == a[0];
      assert (a + b)[1..] == a[1..] + b;
      WithKeyAppend(a[1..], b, key, k);
      calc {
        WithKey(a + b, key, k);
        h + WithKey(a[1..] + b, key, k);
        h + (WithKey(a[1..], key, k) + WithKey(b, key, k));
        (h + WithKey(a[1..], key, k)) + WithKey(b, key, k);
      }
    } else {
      assert a + b == b;
    }
  }

  lemma WithKeySingleton<T>(y: T, key: T -> real, k: real)
    ensures WithKey([y], key, k) == if key(y) == k then [y] else []
  {
    assert [y][1..] == [];
  }

  /** The first element heads the elements sharing its key. */
  lemma WithKeyHead<T>(s: seq<T>, key: T -> real)
    requires |s| > 0
    ensures var w := WithKey(s, key, key(s[0])); |w| > 0 && w[0] == s[0]
  {
  }

  /** The last element ends the elements sharing its key. */
  lemma WithKeyTail<T>(s: seq<T>, key: T -> real)
    requires |s| > 0
    ensures var w := WithKey(s, key, key(s[|s| - 1])); |w| > 0 && w[|w| - 1] == s[|s| - 1]
  {
    var n := |s|;
    var k := key(s[n - 1]);
    assert s == s[..n - 1] + [s[n - 1]];
    WithKeyAppend(s[..n - 1], [s[n - 1]], key, k);
    WithKeySingleton(s[n - 1], key, k);
  }

  /** Inserting into a sorted sequence keeps it sorted. */
  lemma {:induction false} InsertSorted<T>(x: T, s: seq<T>, key: T -> real)
    requires SortedDesc(s, key)
    ensures SortedDesc(Insert(x, s, key), key)
  {
    if |s| > 0 && key(s[0]) > key(x) {
      var t := Insert(x, s[1..], key);
      InsertSorted(x, s[1..], key);
      var r := Insert(x, s, key);
      assert r == [s[0]] + t;
      forall j | 0 < j < |r|
        ensures key(r[0]) >= key(r[j])
      {
        var y := t[j - 1];
        assert r[j] == y && y in t;
        if y != x {
          var tail := s[1..];
          InsertKeeps(x, tail, key, y);
          var m :| 0 <= m < |tail| && tail[m] == y;
          assert s[m + 1] == y;
        }
      }
    }
  }

  /** Everything insertion yields besides `x` comes from `s`. */
  lemma {:induction false} InsertKeeps<T>(x: T, s: seq<T>, key: T -> real, y: T)
    requires y in Insert(x, s, key) && y != x
    ensures y in s
  {
    if |s| > 0 && key(s[0]) > key(x) && y != s[0] {
      InsertKeeps(x, s[1..], key, y);
    }
  }

  /** Insertion puts `x` before the elements of `s` that share its key. */
  lemma {:induction false} InsertWithKey<T>(x: T, s: seq<T>, key: T -> real, k: real)
    ensures WithKey(Insert(x, s, key), key, k) == WithKey([x] + s, key, k)
  {
    if |s| > 0 && key(s[0]) > key(x) {
      var y, rest := s[0], s[1..];
      var t := Insert(x, rest, key);
      assert Insert(x, s, key) == [y] + t;
      assert s == [y] + rest;
      var hy, hx := WithKey([y], key, k), WithKey([x], key, k);
      var w := WithKey(rest, key, k);
      assert hy + hx == hx + hy by {
        WithKeySingleton(y, key, k);
        WithKeySingleton(x, key, k);
      }
      calc {
        WithKey([y] + t, key, k);
        { WithKeyAppend([y], t, key, k); }
        hy + WithKey(t, key, k);
        { InsertWithKey(x, rest, key, k); }
        hy + WithKey([x] + rest, key, k);
        { WithKeyAppend([x], rest, key, k); }
        hy + (hx + w);
        (hx + hy) + w;
        hx + (hy + w);
        { WithKeyAppend([y], rest, key, k); }
        hx + WithKey(s, key, k);
        { WithKeyAppend([x], s, key, k); }
        WithKey([x] + s, key, k);
      }
    }
  }

  /** The sort orders by key, permutes its input, and is stable: for every key
      value, the elements with that key appear in their input order. */
  lemma {:induction false} SortDescFacts<T>(s: seq<T>, key: T -> real)
    ensures SortedDesc(SortDesc(s, key), key)
    ensures multiset(SortDesc(s, key)) == multiset(s)
    ensures forall k :: WithKey(SortDesc(s, key), key, k) == WithKey(s, key, k)
  {
    if |s| > 0 {
      var t := SortDesc(s[1..], key);
      SortDescFacts(s[1..], key);
      InsertSorted(s[0], t, key);
      InsertPermutes(s[0], t, key);
      assert s == [s[0]] + s[1..];
      forall k
        ensures WithKey(SortDesc(s, key), key, k) == WithKey(s, key, k)
      {
        InsertWithKey(s[0], t, key, k);
        WithKeyAppend([s[0]], t, key, k);
        WithKeyAppend([s[0]], s[1..], key, k);
      }
    }
  }

  /** The stable sort puts first the earliest of the elements with the
      largest key, and last the latest of those with the smallest key. */
  lemma SortDescEnds<T>(s: seq<T>, key: T -> real)
    requires |s| > 0
    ensures var r := SortDesc(s, key);
      && var first := WithKey(s, key, key(r[0]));
      && var last := WithKey(s, key, key(r[|r| - 1]));
      && |first| > 0 && first[0] == r[0]
      && |last| > 0 && last[|last| - 1] == r[|r| - 1]
  {
    var r := SortDesc(s, key);
    SortDescFacts(s, key);
    WithKeyHead(r, key);
    WithKeyTail(r, key);
    assert WithKey(r, key, key(r[0])) == WithKey(s, key, key(r[0]));
    assert WithKey(r, key, key(r[|r| - 1])) == WithKey(s, key, key(r[|r| - 1]));
  }

  /** Every element of the sorted sequence comes from the input. */
  lemma SortDescElements<T>(s: seq<T>, key: T -> real)
    ensures forall x :: x in SortDesc(s, key) <==> x in s
  {
    SortDescFacts(s, key);
    forall x
      ensures x in SortDesc(s, key) <==> x in s
    {
      assert x in SortDesc(s, key) <==> x in multiset(SortDesc(s, key));
      assert x in s <==> x in multiset(s);
    }
  }

  /** A subsequence of a sorted sequence is sorted. */
  lemma SubsequenceSorted<T>(a: seq<T>, b: seq<T>, key: T -> real)
    requires IsSubsequence(a, b) && SortedDesc(b, key)
    ensures SortedDesc(a, key)
  {
    var idx :| Embeds(a, b, idx);
    forall i, j | 0 <= i < j < |a|
      ensures key(a[i]) >= key(a[j])
    {
      assert idx[i] < idx[j];
    }
  }

  /** A prefix is a subsequence. */
  lemma TakeIsSubsequence<T>(s: seq<T>, n: nat)
    ensures IsSubsequence(Take(s, n), s)
  {
    var r := Take(s, n);
    var idx := seq(|r|, i => i);
    assert Embeds(r, s, idx);
  }

  /** Deleting from a subsequence gives a subsequence. */
  lemma SubsequenceTransitive<T>(a: seq<T>, b: seq<T>, c: seq<T>)
    requires IsSubsequence(a, b) && IsSubsequence(b, c)
    ensures IsSubsequence(a, c)
  {
    var i1 :| Embeds(a, b, i1);
    var i2 :| Embeds(b, c, i2);
    var idx := seq(|a|, i requires 0 <= i < |a| => i2[i1[i]]);
    assert Embeds(a, c, idx);
  }

  /** Every element of a subsequence occurs in the sequence. */
  lemma SubsequenceElements<T>(a: seq<T>, b: seq<T>)
    requires IsSubsequence(a, b)
    ensures forall x :: x in a ==> x in b
  {
    var idx :| Embeds(a, b, idx);
    forall x | x in a
      ensures x in b
    {
      var i :| 0 <= i < |a| && a[i] == x;
      assert b[idx[i]] == x;
    }
  }

  /** Dropping or keeping the head of `s` extends a subsequence of its tail. */
  lemma SubsequenceCons<T>(a: seq<T>, s: seq<T>)
    requires |s| > 0 && IsSubsequence(a, s[1..])
    ensures IsSubsequence(a, s)
    ensures IsSubsequence([s[0]] + a, s)
  {
    var idx :| Embeds(a, s[1..], idx);
    var shifted := seq(|a|, i requires 0 <= i < |a| => idx[i] + 1);
    assert Embeds(a, s, shifted);
    var consed := [0] + shifted;
    assert Embeds([s[0]] + a, s, consed);
  }

  /** The empty sequence is a subsequence of anything. */
  lemma EmptySubsequence<T>(s: seq<T>)
    ensures IsSubsequence([], s)
  {
    assert Embeds([], s, []);
  }
}

=== FILE: record_screen.dfy ===
/** The client-side decisions of the recording screen (screens/RecordScreen.tsx)
    as pure transitions over an explicit state record: the ball-validity
    filter, the ball/goal overlap test against the hand-annotated goal, the
    edge-triggered recording trigger with its 3-second cooldown, the four-tap
    goal annotation, and the 1-second hold of the "football detected" status.
    Times are integer milliseconds, as `Date.now()` returns them. */
module RecordScreen {
  import opened Wrappers
  import opened Geometry
  import opened ClientGeometry

  /** A ball as the server sends it; the box may be missing. */
  datatype ClientBall = ClientBall(bbox: Option<seq<real>>, confidence: real)

  /** The validity test of the message handler: a box with at least four
      numbers, confidence above 0.15, aspect ratio in (0.3, 3.0), area in
      (100, 100000), and both sides above 10 pixels. JavaScript divides by a
      zero height without failing, but the test then fails on `height > 10`,
      so the model checks the height before dividing. */
  predicate IsValidBall(b: ClientBall) {
    && b.bbox.Some? && |b.bbox.value| >= 4
    && var bx := b.bbox.value;
    var w, h := bx[2] - bx[0], bx[3] - bx[1];
    && h > 10.0
    && b.confidence > 0.15
    && 0.3 < w / h < 3.0
    && 100.0 < w * h < 100000.0
    && w > 10.0
  }

  /** `balls.filter(valid)`. */
  function ValidBalls(balls: seq<ClientBall>): (r: seq<ClientBall>)
    ensures |r| <= |balls|
    ensures forall b :: b in r <==> b in balls && IsValidBall(b)
  {
    if |balls| == 0 then []
    else
      var rest := ValidBalls(balls[1..]);
      assert forall b :: b in balls <==> b == balls[0] || b in balls[1..];
      if IsValidBall(balls[0]) then [balls[0]] + rest else rest
  }

  /** `balls.filter(valid).length`, the count the handler computes before the
      filter it acts on, with its own copy of the validity test. */
  function ValidCount(balls: seq<ClientBall>): nat {
    if |balls| == 0 then 0
    else (if IsValidBall(balls[0]) then 1 else 0) + ValidCount(balls[1..])
  }

  /** The count agrees with the filter the handler acts on. */
  lemma {:induction false} ValidCountMatches(balls: seq<ClientBall>)
    ensures ValidCount(balls) == |ValidBalls(balls)|
  {
    if |balls| > 0 {
      ValidCountMatches(balls[1..]);
    }
  }

  /** The first valid ball, the only one the overlap test looks at, is the
      first ball of the message that passes the test. */
  lemma {:induction false} FirstValidBall(balls: seq<ClientBall>)
    requires |ValidBalls(balls)| > 0
    ensures exists k ::
      (0 <= k < |balls| && balls[k] == ValidBalls(balls)[0] && forall j :: 0 <= j < k ==> !IsValidBall(balls[j]))
  {
    if !IsValidBall(balls[0]) {
      FirstValidBall(balls[1..]);
      var k :| 0 <= k < |balls[1..]| && balls[1..][k] == ValidBalls(balls)[0]
        && (forall j :: 0 <= j < k ==> !IsValidBall(balls[1..][j]));
      assert balls[k + 1] == ValidBalls(balls)[0];
      forall j | 0 <= j < k + 1
        ensures !IsValidBall(balls[j])
      {
        if j > 0 {
          assert balls[j] == balls[1..][j - 1];
        }
      }
    }
  }

  /** `Math.max(...validBalls.map(confidence))`. */
  function MaxConfidence(balls: seq<ClientBall>): (c: real)
    requires |balls| > 0
    ensures forall b :: b in balls ==> b.confidence <= c
    ensures exists b :: b in balls && b.confidence == c
  {
    if |balls| == 1 then balls[0].confidence
    else
      var rest := MaxConfidence(balls[1..]);
      assert forall b :: b in balls <==> b == balls[0] || b in balls[1..];
      Max(balls[0].confidence, rest)
  }

  /** The camera frame size, once a picture has been taken. */
  datatype FrameSize = FrameSize(w: real, h: real)

  /** The device window and the frame size the screen knows. */
  datatype Display = Display(screenWidth: real, screenHeight: real, frameSize: Option<FrameSize>)

  /** Fallback frame size while no picture has been taken, and the height of
      the tab bar under the camera view. */
  const DefaultFrameWidth: real := 2048.0
  const DefaultFrameHeight: real := 4032.0
  const TabBarHeight: real := 83.0

  /** JavaScript would divide by a zero frame side without failing and scale
      by infinity; the model requires the known sides to be non-zero. */
  predicate ScaleDefined(d: Display) {
    d.frameSize.Some? ==> d.frameSize.value.w != 0.0 && d.frameSize.value.h != 0.0
  }

  function SourceWidth(d: Display): real {
    if d.frameSize.Some? then d.frameSize.value.w else DefaultFrameWidth
  }

  function SourceHeight(d: Display): real {
    if d.frameSize.Some? then d.frameSize.value.h else DefaultFrameHeight
  }

  /** Horizontal scale from frame pixels to screen points. */
  function ScaleX(d: Display): real
    requires ScaleDefined(d)
  {
    d.screenWidth / SourceWidth(d)
  }

  /** Vertical scale, for the view above the tab bar. */
  function ScaleY(d: Display): real
    requires ScaleDefined(d)
  {
    (d.screenHeight - TabBarHeight) / SourceHeight(d)
  }

  /** The ball box on screen: the raw box scaled. The handler also rescales
      boxes that look normalised to 0..1, but never uses the result, so a
      normalised box is compared unscaled. */
  function BallRect(b: ClientBall, d: Display): (r: Box)
    requires IsValidBall(b) && ScaleDefined(d)
    ensures r.x1 == b.bbox.value[0] * ScaleX(d) && r.x2 == b.bbox.value[2] * ScaleX(d)
    ensures r.y1 == b.bbox.value[1] * ScaleY(d) && r.y2 == b.bbox.value[3] * ScaleY(d)
  {
    var bx := b.bbox.value;
    Box(bx[0] * ScaleX(d), bx[1] * ScaleY(d), bx[2] * ScaleX(d), bx[3] * ScaleY(d))
  }

  /** The "football detected" indicator. */
  datatype DetectionStatus = DetectionStatus(hasFootball: bool, confidence: real, lastDetectionMs: int)

  /** Everything the handlers read or write. `pendingExpiryMs` is the
      detection time of the still-armed 1-second timer, if any. */
  datatype ScreenState = ScreenState(
    overlapPrev: bool,
    lastAlertMs: int,
    isRecording: bool,
    isAnnotating: bool,
    corners: seq<Point>,
    manualGoalArea: Option<seq<Point>>,
    status: DetectionStatus,
    pendingExpiryMs: Option<int>,
    hasGoalOverlap: bool,
    soccerBalls: seq<ClientBall>,
    isGoalMoment: bool)

  /** The state when the screen mounts. */
  const Initial := ScreenState(false, 0, false, false, [], None, DetectionStatus(false, 0.0, 0), None, false, [], false)

  /** The status stays green this long after the last detection. */
  const HoldMs: int := 1000

  /** Minimum time between two recording triggers. */
  const CooldownMs: int := 3000

  /** `updateDetectionStatus(hasValidBalls, confidence)` at time `now`: a
      detection turns the status on at once and arms the timer; a miss turns
      it off only once the hold has passed since the last change. */
  function UpdateDetectionStatus(st: ScreenState, hasValidBalls: bool, confidence: real, now: int): (r: ScreenState)
    ensures r == st.(status := r.status, pendingExpiryMs := r.pendingExpiryMs)
    ensures hasValidBalls ==> r.status == DetectionStatus(true, confidence, now) && r.pendingExpiryMs == Some(now)
    ensures !hasValidBalls ==> r.pendingExpiryMs == st.pendingExpiryMs
    ensures !hasValidBalls && now - st.status.lastDetectionMs >= HoldMs ==> r.status == DetectionStatus(false, 0.0, now)
    ensures !hasValidBalls && now - st.status.lastDetectionMs < HoldMs ==> r.status == st.status
  {
    if hasValidBalls then
      st.(status := DetectionStatus(true, confidence, now), pendingExpiryMs := Some(now))
    else if now - st.status.lastDetectionMs >= HoldMs then
      st.(status := DetectionStatus(false, 0.0, now))
    else
      st
  }

  /** The 1-second timer fires: it turns the status off exactly when no
      detection has replaced the one that armed it, and leaves it alone
      otherwise. */
  function DetectionTimerFired(st: ScreenState): (r: ScreenState)
    ensures r == st.(status := r.status, pendingExpiryMs := r.pendingExpiryMs)
    ensures r.pendingExpiryMs.None?
    ensures st.pendingExpiryMs == Some(st.status.lastDetectionMs) ==>
      r.status == DetectionStatus(false, 0.0, st.status.lastDetectionMs)
    ensures st.pendingExpiryMs != Some(st.status.lastDetectionMs) ==> r.status == st.status
    ensures r.status != st.status ==> st.pendingExpiryMs == Some(st.status.lastDetectionMs) && !r.status.hasFootball
  {
    match st.pendingExpiryMs
    case None => st
    case Some(t) =>
      if t == st.status.lastDetectionMs then
        st.(status := DetectionStatus(false, 0.0, t), pendingExpiryMs := None)
      else
        st.(pendingExpiryMs := None)
  }

  /** The side effects a message asks for. */
  datatype Effects = Effects(startRecording: bool, raiseBanner: bool)

  const NoEffects := Effects(false, false)

  /** The overlap test of one message: only with a valid ball and an
      annotated goal of exactly four points, and only for the first valid
      ball. */
  predicate GoalOverlap(st: ScreenState, valid: seq<ClientBall>, d: Display)
    requires forall b :: b in valid ==> IsValidBall(b)
    requires ScaleDefined(d)
  {
    && |valid| > 0
    && st.manualGoalArea.Some? && |st.manualGoalArea.value| == 4
    && DoRectanglesOverlap(BallRect(valid[0], d), GetBoundingRect(st.manualGoalArea.value).value)
  }

  /** The edge detector on the overlap flag: a rising edge raises the banner
      and, outside the cooldown and while not recording, starts a recording
      and restarts the cooldown; a falling edge only resets the flag. */
  function OverlapStep(st: ScreenState, overlap: bool, now: int): (r: (ScreenState, Effects))
    ensures r.0.overlapPrev == overlap
    ensures r.0 == st.(overlapPrev := r.0.overlapPrev, lastAlertMs := r.0.lastAlertMs, hasGoalOverlap := overlap)
    ensures r.1.startRecording <==> overlap && !st.overlapPrev && now - st.lastAlertMs > CooldownMs && !st.isRecording
    ensures r.1.raiseBanner <==> overlap && !st.overlapPrev
    ensures r.0.lastAlertMs == if r.1.startRecording then now else st.lastAlertMs
  {
    var st1 := st.(hasGoalOverlap := overlap);
    if overlap && !st.overlapPrev then
      var start := now - st.lastAlertMs > CooldownMs && !st.isRecording;
      (st1.(overlapPrev := true, lastAlertMs := if start then now else st.lastAlertMs), Effects(start, true))
    else if !overlap && st.overlapPrev then
      (st1.(overlapPrev := false), NoEffects)
    else
      (st1, NoEffects)
  }

  /** What a WebSocket message turns into once parsed: only a successful
      detection message carries data the handler acts on. */
  datatype Message =
    | NotText
    | NotJson
    | NoSuccessField
    | Failed
    | Detected(balls: seq<ClientBall>, serverGoalMoment: bool)

  /** `ws.onmessage` at time `now`. With no balls at all the status update
      for a miss runs twice, once before and once after the filter. */
  function OnMessage(st: ScreenState, m: Message, now: int, d: Display): (r: (ScreenState, Effects))
    requires ScaleDefined(d)
    ensures !m.Detected? ==> r == (st, NoEffects)
  {
    match m
    case Detected(balls, serverGoalMoment) =>
      var st1 := if |balls| == 0 then UpdateDetectionStatus(st, false, 0.0, now) else st;
      var valid := ValidBalls(balls);
      var st2 :=
        if |valid| > 0 then UpdateDetectionStatus(st1, true, MaxConfidence(valid), now)
        else UpdateDetectionStatus(st1, false, 0.0, now);
      var overlap := GoalOverlap(st2, valid, d);
      var (st3, effects) := OverlapStep(st2, overlap, now);
      (st3.(soccerBalls := balls, isGoalMoment := st3.isGoalMoment || effects.raiseBanner || serverGoalMoment), effects)
    case _ => (st, NoEffects)
  }

  /** A tap on the camera view, with the coordinates React Native reports
      (absent when the event carries none). */
  datatype Tap = Tap(pageX: Option<real>, locationX: Option<real>, pageY: Option<real>, locationY: Option<real>)

  /** `a || b || 100`: JavaScript skips a coordinate that is absent or 0. */
  function Coordinate(a: Option<real>, b: Option<real>): (c: real)
    ensures a.Some? && a.value != 0.0 ==> c == a.value
    ensures (a.None? || a.value == 0.0) && b.Some? && b.value != 0.0 ==> c == b.value
    ensures (a.None? || a.value == 0.0) && (b.None? || b.value == 0.0) ==> c == 100.0
  {
    if a.Some? && a.value != 0.0 then a.value
    else if b.Some? && b.value != 0.0 then b.value
    else 100.0
  }

  function TapPoint(t: Tap): Point {
    Point(Coordinate(t.pageX, t.locationX), Coordinate(t.pageY, t.locationY))
  }

  /** `handleGoalAnnotation`: outside annotation mode a tap does nothing;
      otherwise it appends its point, and the fourth point stores the goal
      area and ends annotation. */
  function HandleGoalAnnotation(st: ScreenState, t: Tap): (r: ScreenState)
    ensures !st.isAnnotating ==> r == st
    ensures st.isAnnotating ==> r.corners == st.corners + [TapPoint(t)]
    ensures st.isAnnotating && |st.corners| == 3 ==> r.manualGoalArea == Some(r.corners) && !r.isAnnotating
    ensures st.isAnnotating && |st.corners| != 3 ==> r.manualGoalArea == st.manualGoalArea && r.isAnnotating
    ensures r == st.(corners := r.corners, manualGoalArea := r.manualGoalArea, isAnnotating := r.isAnnotating)
  {
    if !st.isAnnotating then st
    else
      var corners := st.corners + [TapPoint(t)];
      if |corners| == 4 then st.(corners := corners, manualGoalArea := Some(corners), isAnnotating := false)
      else st.(corners := corners)
  }

  /** `startGoalAnnotation`: a fresh annotation replaces the stored goal. */
  function StartGoalAnnotation(st: ScreenState): (r: ScreenState)
    ensures r.isAnnotating && r.corners == [] && r.manualGoalArea.None?
    ensures r == st.(isAnnotating := true, corners := [], manualGoalArea := None)
  {
    st.(isAnnotating := true, corners := [], manualGoalArea := None)
  }

  /** `clearGoalAnnotation`: forget the goal and the overlap flags; the
      recording, the cooldown, the status and the balls are left alone. */
  function ClearGoalAnnotation(st: ScreenState): (r: ScreenState)
    ensures !r.isAnnotating && r.corners == [] && r.manualGoalArea.None?
    ensures !r.overlapPrev && !r.hasGoalOverlap
    ensures r == st.(isAnnotating := r.isAnnotating, corners := r.corners, manualGoalArea := r.manualGoalArea,
                     hasGoalOverlap := r.hasGoalOverlap, overlapPrev := r.overlapPrev)
  {
    st.(isAnnotating := false, corners := [], manualGoalArea := None, hasGoalOverlap := false, overlapPrev := false)
  }

  /** Everything that can happen to the screen. */
  datatype Event =
    | Received(m: Message, now: int)
    | Tapped(t: Tap)
    | StartAnnotation
    | ClearAnnotation
    | DetectionTimeout
    | BannerTimeout
    | RecordingChanged(recording: bool)
    | Blurred

  /** One event. Leaving the page disarms the status timer and resets the
      overlap flags; the banner timer turns the banner off; the camera reports
      when recording starts and stops. */
  function Step(st: ScreenState, e: Event, d: Display): (r: (ScreenState, Effects))
    requires ScaleDefined(d)
    ensures !e.Received? ==> r.1 == NoEffects
  {
    match e
    case Received(m, now) => OnMessage(st, m, now, d)
    case Tapped(t) => (HandleGoalAnnotation(st, t), NoEffects)
    case StartAnnotation => (StartGoalAnnotation(st), NoEffects)
    case ClearAnnotation => (ClearGoalAnnotation(st), NoEffects)
    case DetectionTimeout => (DetectionTimerFired(st), NoEffects)
    case BannerTimeout => (st.(isGoalMoment := false), NoEffects)
    case RecordingChanged(b) => (st.(isRecording := b), NoEffects)
    case Blurred => (st.(pendingExpiryMs := None, hasGoalOverlap := false, overlapPrev := false), NoEffects)
  }

  /** Annotation is consistent: while annotating fewer than four points are
      collected, and a stored goal area has exactly four points. */
  ghost predicate AnnotationInvariant(st: ScreenState) {
    && (st.isAnnotating ==> |st.corners| < 4)
    && (st.manualGoalArea.Some? ==> |st.manualGoalArea.value| == 4)
  }

  /** Every event keeps the annotation consistent, so once a goal is stored
      the overlap test's four-point condition always holds. */
  lemma StepKeepsAnnotation(st: ScreenState, e: Event, d: Display)
    requires ScaleDefined(d) && AnnotationInvariant(st)
    ensures AnnotationInvariant(Step(st, e, d).0)
  {
    if e.Received? && e.m.Detected? {
      OnMessageKeepsRest(st, e.m, e.now, d);
    }
  }

  /** A consistent screen stays so over any run of events. */
  lemma {:induction false} RunKeepsAnnotation(st: ScreenState, events: seq<Event>, d: Display)
    requires ScaleDefined(d) && AnnotationInvariant(st)
    ensures AnnotationInvariant(Run(st, events, d).0)
    decreases |events|
  {
    if |events| > 0 {
      StepKeepsAnnotation(st, events[0], d);
      RunKeepsAnnotation(Step(st, events[0], d).0, events[1..], d);
    }
  }

  /** The screen mounts consistent. */
  lemma InitialAnnotated()
    ensures AnnotationInvariant(Initial)
  {
  }

  /** From mounting on, a stored goal area always has four points. */
  lemma RunFromInitialKeepsAnnotation(events: seq<Event>, d: Display)
    requires ScaleDefined(d)
    ensures AnnotationInvariant(Run(Initial, events, d).0)
  {
    InitialAnnotated();
    RunKeepsAnnotation(Initial, events, d);
  }

  /** A message touches only the overlap, cooldown, status and ball fields:
      annotation, recording state and the goal area stay as they were. */
  lemma OnMessageKeepsRest(st: ScreenState, m: Message, now: int, d: Display)
    requires ScaleDefined(d)
    ensures var r := OnMessage(st, m, now, d).0;
      && r.isAnnotating == st.isAnnotating && r.corners == st.corners
      && r.manualGoalArea == st.manualGoalArea && r.isRecording == st.isRecording
  {
    if m.Detected? {
      var st1 := if |m.balls| == 0 then UpdateDetectionStatus(st, false, 0.0, now) else st;
      var valid := ValidBalls(m.balls);
      var st2 :=
        if |valid| > 0 then UpdateDetectionStatus(st1, true, MaxConfidence(valid), now)
        else UpdateDetectionStatus(st1, false, 0.0, now);
      var st3 := OverlapStep(st2, GoalOverlap(st2, valid, d), now).0;
      assert SameAnnotationAndRecording(st, st1);
      assert SameAnnotationAndRecording(st1, st2);
      assert SameAnnotationAndRecording(st2, st3);
    }
  }

  /** The fields no message touches agree. */
  ghost predicate SameAnnotationAndRecording(a: ScreenState, b: ScreenState) {
    && a.isAnnotating == b.isAnnotating && a.corners == b.corners
    && a.manualGoalArea == b.manualGoalArea && a.isRecording == b.isRecording
  }

  /** A message starts a recording exactly when its overlap test passes, the
      previous message's did not, the cooldown has passed and no recording is
      running; the cooldown restarts exactly then. */
  lemma TriggerIff(st: ScreenState, m: Message, now: int, d: Display)
    requires ScaleDefined(d) && m.Detected?
    ensures var (r, eff) := OnMessage(st, m, now, d);
      var valid := ValidBalls(m.balls);
      && (eff.startRecording <==>
            GoalOverlap(st, valid, d) && !st.overlapPrev && now - st.lastAlertMs > CooldownMs && !st.isRecording)
      && (r.lastAlertMs != st.lastAlertMs ==> eff.startRecording)
      && (eff.startRecording ==> r.lastAlertMs == now)
      && r.overlapPrev == GoalOverlap(st, valid, d)
  {
    var valid := ValidBalls(m.balls);
    var st1 := if |m.balls| == 0 then UpdateDetectionStatus(st, false, 0.0, now) else st;
    var st2 :=
      if |valid| > 0 then UpdateDetectionStatus(st1, true, MaxConfidence(valid), now)
      else UpdateDetectionStatus(st1, false, 0.0, now);
    assert GoalOverlap(st2, valid, d) == GoalOverlap(st, valid, d);
  }

  /** Two consecutive overlapping messages never trigger twice: after an
      overlapping message the flag is set, and a message seen with the flag
      set triggers nothing. */
  lemma NoRetrigger(st: ScreenState, m1: Message, t1: int, m2: Message, t2: int, d: Display)
    requires ScaleDefined(d) && m1.Detected? && m2.Detected?
    ensures GoalOverlap(st, ValidBalls(m1.balls), d) ==>
      !OnMessage(OnMessage(st, m1, t1, d).0, m2, t2, d).1.startRecording
  {
    TriggerIff(st, m1, t1, d);
    TriggerIff(OnMessage(st, m1, t1, d).0, m2, t2, d);
  }

  /** The states and trigger times of a run of events. */
  function Run(st: ScreenState, events: seq<Event>, d: Display): (r: (ScreenState, seq<int>))
    requires ScaleDefined(d)
    decreases |events|
  {
    if |events| == 0 then (st, [])
    else
      var (next, eff) := Step(st, events[0], d);
      var (last, fires) := Run(next, events[1..], d);
      (last, (if eff.startRecording then [events[0].now] else []) + fires)
  }

  /** Over any run, every recording starts more than 3 seconds after the
      previous one (and after the cooldown mark the run started with). */
  lemma {:induction false} RunSpacesTriggers(st: ScreenState, events: seq<Event>, d: Display)
    requires ScaleDefined(d)
    ensures var fires := Run(st, events, d).1;
      && (|fires| > 0 ==> fires[0] - st.lastAlertMs > CooldownMs)
      && (forall i :: 0 <= i < |fires| - 1 ==> fires[i + 1] - fires[i] > CooldownMs)
      && (|fires| > 0 ==> Run(st, events, d).0.lastAlertMs == fires[|fires| - 1])
      && (|fires| == 0 ==> Run(st, events, d).0.lastAlertMs == st.lastAlertMs)
    decreases |events|
  {
    if |events| > 0 {
      var e := events[0];
      var (next, eff) := Step(st, e, d);
      var (last, rest) := Run(next, events[1..], d);
      RunSpacesTriggers(next, events[1..], d);
      StepCooldown(st, e, d);
      var fires := (if eff.startRecording then [e.now] else []) + rest;
      assert Run(st, events, d) == (last, fires);
      if eff.startRecording {
        assert fires == [e.now] + rest;
        forall i | 0 <= i < |fires| - 1
          ensures fires[i + 1] - fires[i] > CooldownMs
        {
          if i > 0 {
            assert fires[i] == rest[i - 1] && fires[i + 1] == rest[i];
          }
        }
      } else {
        assert fires == rest;
      }
    }
  }

  /** One event restarts the cooldown exactly when it starts a recording, and
      only once the cooldown has passed. */
  lemma StepCooldown(st: ScreenState, e: Event, d: Display)
    requires ScaleDefined(d)
    ensures var (next, eff) := Step(st, e, d);
      && (eff.startRecording ==> e.Received? && next.lastAlertMs == e.now && e.now - st.lastAlertMs > CooldownMs)
      && (!eff.startRecording ==> next.lastAlertMs == st.lastAlertMs)
  {
    if e.Received? && e.m.Detected? {
      TriggerIff(st, e.m, e.now, d);
    }
  }

  /** A miss at the same instant twice has the effect of one miss, so the
      double update on an empty message is harmless. */
  lemma MissIdempotent(st: ScreenState, now: int)
    ensures var once := UpdateDetectionStatus(st, false, 0.0, now);
      UpdateDetectionStatus(once, false, 0.0, now) == once
  {
  }

  /** The status goes off within the hold only through the timer: a miss less
      than a second after the last change keeps a green status green. */
  lemma HoldKeepsGreen(st: ScreenState, m: Message, now: int, d: Display)
    requires ScaleDefined(d) && st.status.hasFootball
    requires now - st.status.lastDetectionMs < HoldMs
    ensures OnMessage(st, m, now, d).0.status.hasFootball
  {
  }

  /** Four taps after starting an annotation store exactly their points as
      the goal area and end annotation. */
  lemma FourTapsStoreGoal(st: ScreenState, t1: Tap, t2: Tap, t3: Tap, t4: Tap)
    ensures var r := HandleGoalAnnotation(HandleGoalAnnotation(HandleGoalAnnotation(HandleGoalAnnotation(
      StartGoalAnnotation(st), t1), t2), t3), t4);
      && r.manualGoalArea == Some([TapPoint(t1), TapPoint(t2), TapPoint(t3), TapPoint(t4)])
      && !r.isAnnotating
  {
    var s1 := HandleGoalAnnotation(StartGoalAnnotation(st), t1);
    var s2 := HandleGoalAnnotation(s1, t2);
    var s3 := HandleGoalAnnotation(s2, t3);
    assert s3.corners == [TapPoint(t1), TapPoint(t2), TapPoint(t3)];
    assert s3.corners + [TapPoint(t4)] == [TapPoint(t1), TapPoint(t2), TapPoint(t3), TapPoint(t4)];
  }
}

=== FILE: trajectory.dfy ===
/** Finite-difference ball trajectory (`calculate_ball_trajectory` in
    ai_model/soccer_detector.py): positions are the history's centres,
    velocities the position differences over time differences, and
    accelerations the velocity differences over the later time differences.
    The Euclidean norm of the last velocity is kept squared. */
module Trajectory {
  import opened Wrappers
  import opened Geometry
  import opened Detections

  datatype Trajectory = Trajectory(
    positions: seq<Point>,
    velocities: seq<Point>,
    accelerations: seq<Point>,
    speedSquared: real)

  /** Fewer history entries than this yield no trajectory. */
  const MinHistory: nat := 3

  /** `ball.get('timestamp', i)`: the recorded time, or the entry's index. */
  function TimeOf(history: seq<Detection>, i: nat): real
    requires i < |history|
  {
    history[i].timestamp.GetOr(i as real)
  }

  /** numpy divides by the time differences without raising; a zero
      difference would give infinities, so the model requires none. */
  ghost predicate ConsecutiveTimesDiffer(history: seq<Detection>) {
    forall i :: 0 <= i < |history| - 1 ==> TimeOf(history, i) != TimeOf(history, i + 1)
  }

  /** `(q - p) / dt`, componentwise. */
  function Rate(p: Point, q: Point, dt: real): Point
    requires dt != 0.0
  {
    Point((q.x - p.x) / dt, (q.y - p.y) / dt)
  }

  function SquaredNorm(p: Point): real {
    p.x * p.x + p.y * p.y
  }

  /** The time step between entries `i` and `i + 1`. */
  function Step(history: seq<Detection>, i: nat): real
    requires i + 1 < |history|
  {
    TimeOf(history, i + 1) - TimeOf(history, i)
  }

  /** `np.diff(positions) / np.diff(times)`. */
  function Velocities(history: seq<Detection>): (vs: seq<Point>)
    requires |history| > 0 && ConsecutiveTimesDiffer(history)
    ensures |vs| == |history| - 1
    ensures forall i :: 0 <= i < |vs| ==> vs[i] == Rate(history[i].center, history[i + 1].center, Step(history, i))
  {
    seq(|history| - 1, i requires 0 <= i < |history| - 1 =>
      Rate(history[i].center, history[i + 1].center, Step(history, i)))
  }

  /** `np.diff(velocities) / np.diff(times[1:])`. */
  function Accelerations(history: seq<Detection>, vs: seq<Point>): (acc: seq<Point>)
    requires |history| > 1 && ConsecutiveTimesDiffer(history) && |vs| == |history| - 1
    ensures |acc| == |history| - 2
    ensures forall i :: 0 <= i < |acc| ==> acc[i] == Rate(vs[i], vs[i + 1], Step(history, i + 1))
  {
    seq(|history| - 2, i requires 0 <= i < |history| - 2 => Rate(vs[i], vs[i + 1], Step(history, i + 1)))
  }

  /** `calculate_ball_trajectory`. */
  function CalculateBallTrajectory(history: seq<Detection>): (r: Option<Trajectory>)
    requires |history| >= MinHistory ==> ConsecutiveTimesDiffer(history)
    ensures r.None? <==> |history| < MinHistory
    ensures r.Some? ==>
      var n := |history|;
      && |r.value.positions| == n
      && |r.value.velocities| == n - 1
      && |r.value.accelerations| == n - 2
      && (forall i :: 0 <= i < n ==> r.value.positions[i] == history[i].center)
  {
    var n := |history|;
    if n < MinHistory then None
    else
      var velocities := Velocities(history);
      Some(Trajectory(
        seq(n, i requires 0 <= i < n => history[i].center),
        velocities,
        Accelerations(history, velocities),
        SquaredNorm(velocities[n - 2])))
  }

  /** Moving at rate `v` for time `dt` takes `p` to `q`. */
  ghost predicate Displaces(v: Point, dt: real, p: Point, q: Point) {
    v.x * dt == q.x - p.x && v.y * dt == q.y - p.y
  }

  /** What the trajectory's numbers mean, stated without the division:
      each velocity, held over its time step, carries the ball's centre to
      the next one, each acceleration, held over the later of its two steps,
      carries one velocity to the next, and the speed is the norm of the
      last velocity. A non-zero step leaves only one such velocity and
      acceleration. */
  lemma TrajectoryParts(history: seq<Detection>)
    requires |history| >= MinHistory && ConsecutiveTimesDiffer(history)
    ensures var t := CalculateBallTrajectory(history).value;
      var n := |history|;
      && (forall i :: 0 <= i < n - 1 ==>
            Displaces(t.velocities[i], Step(history, i), history[i].center, history[i + 1].center))
      && (forall i :: 0 <= i < n - 2 ==>
            Displaces(t.accelerations[i], Step(history, i + 1), t.velocities[i], t.velocities[i + 1]))
      && t.speedSquared == SquaredNorm(t.velocities[n - 2])
  {
    var t := CalculateBallTrajectory(history).value;
    var vs := Velocities(history);
    var acc := Accelerations(history, vs);
    assert t.velocities == vs && t.accelerations == acc;
    forall i | 0 <= i < |history| - 1
      ensures Displaces(vs[i], Step(history, i), history[i].center, history[i + 1].center)
    {
      VelocityTimesStep(history, i);
    }
    forall i | 0 <= i < |history| - 2
      ensures Displaces(acc[i], Step(history, i + 1), vs[i], vs[i + 1])
    {
      AccelerationTimesStep(history, vs, i);
    }
  }

  /** Each velocity times its time step is the displacement over that step. */
  lemma VelocitiesTimesSteps(history: seq<Detection>)
    requires |history| > 0 && ConsecutiveTimesDiffer(history)
    ensures forall i :: 0 <= i < |history| - 1 ==>
      && Velocities(history)[i].x * Step(history, i) == history[i + 1].center.x - history[i].center.x
      && Velocities(history)[i].y * Step(history, i) == history[i + 1].center.y - history[i].center.y
  {
    forall i | 0 <= i < |history| - 1
      ensures Velocities(history)[i].x * Step(history, i) == history[i + 1].center.x - history[i].center.x
      ensures Velocities(history)[i].y * Step(history, i) == history[i + 1].center.y - history[i].center.y
    {
      VelocityTimesStep(history, i);
    }
  }

  lemma VelocityTimesStep(history: seq<Detection>, i: nat)
    requires ConsecutiveTimesDiffer(history) && i < |history| - 1
    ensures Velocities(history)[i].x * Step(history, i) == history[i + 1].center.x - history[i].center.x
    ensures Velocities(history)[i].y * Step(history, i) == history[i + 1].center.y - history[i].center.y
  {
    RateTimesStep(history[i].center, history[i + 1].center, Step(history, i));
  }

  /** Each acceleration times the later of its two time steps is the change
      of velocity. */
  lemma AccelerationsTimesSteps(history: seq<Detection>, vs: seq<Point>)
    requires |history| > 1 && ConsecutiveTimesDiffer(history) && |vs| == |history| - 1
    ensures forall i :: 0 <= i < |history| - 2 ==>
      && Accelerations(history, vs)[i].x * Step(history, i + 1) == vs[i + 1].x - vs[i].x
      && Accelerations(history, vs)[i].y * Step(history, i + 1) == vs[i + 1].y - vs[i].y
  {
    forall i | 0 <= i < |history| - 2
      ensures Accelerations(history, vs)[i].x * Step(history, i + 1) == vs[i + 1].x - vs[i].x
      ensures Accelerations(history, vs)[i].y * Step(history, i + 1) == vs[i + 1].y - vs[i].y
    {
      AccelerationTimesStep(history, vs, i);
    }
  }

  lemma AccelerationTimesStep(history: seq<Detection>, vs: seq<Point>, i: nat)
    requires ConsecutiveTimesDiffer(history) && |vs| == |history| - 1 && i < |history| - 2
    ensures Accelerations(history, vs)[i].x * Step(history, i + 1) == vs[i + 1].x - vs[i].x
    ensures Accelerations(history, vs)[i].y * Step(history, i + 1) == vs[i + 1].y - vs[i].y
  {
    RateTimesStep(vs[i], vs[i + 1], Step(history, i + 1));
  }

  /** A rate times its step is the difference it came from. */
  lemma RateTimesStep(p: Point, q: Point, dt: real)
    requires dt != 0.0
    ensures Rate(p, q, dt).x * dt == q.x - p.x
    ensures Rate(p, q, dt).y * dt == q.y - p.y
  {
  }

  /** A ball moving uniformly, `center = start + v * time`, has velocity `v`
      at every step and zero acceleration. */
  lemma UniformMotion(history: seq<Detection>, start: Point, v: Point)
    requires |history| >= MinHistory && ConsecutiveTimesDiffer(history)
    requires forall i :: 0 <= i < |history| ==>
      history[i].center == Point(start.x + v.x * TimeOf(history, i), start.y + v.y * TimeOf(history, i))
    ensures forall i :: 0 <= i < |history| - 1 ==> Velocities(history)[i] == v
    ensures forall i :: 0 <= i < |history| - 2 ==> Accelerations(history, Velocities(history))[i] == Point(0.0, 0.0)
  {
    forall i | 0 <= i < |history| - 1
      ensures Velocities(history)[i] == v
    {
      UniformVelocityAt(history, start, v, i);
    }
    forall i | 0 <= i < |history| - 2
      ensures Accelerations(history, Velocities(history))[i] == Point(0.0, 0.0)
    {
      UniformVelocityAt(history, start, v, i);
      UniformVelocityAt(history, start, v, i + 1);
      StillAt(history, Velocities(history), i);
    }
  }

  lemma UniformVelocityAt(history: seq<Detection>, start: Point, v: Point, i: nat)
    requires ConsecutiveTimesDiffer(history) && i < |history| - 1
    requires history[i].center == Point(start.x + v.x * TimeOf(history, i), start.y + v.y * TimeOf(history, i))
    requires history[i + 1].center == Point(start.x + v.x * TimeOf(history, i + 1), start.y + v.y * TimeOf(history, i + 1))
    ensures Velocities(history)[i] == v
  {
    UniformRate(history[i].center, history[i + 1].center, start, v, TimeOf(history, i), TimeOf(history, i + 1));
  }

  /** The rate between two positions on a uniform path is its velocity. */
  lemma UniformRate(p: Point, q: Point, start: Point, v: Point, t0: real, t1: real)
    requires t0 != t1
    requires p == Point(start.x + v.x * t0, start.y + v.y * t0)
    requires q == Point(start.x + v.x * t1, start.y + v.y * t1)
    ensures Rate(p, q, t1 - t0) == v
  {
    UniformStep(start.x, v.x, t0, t1);
    UniformStep(start.y, v.y, t0, t1);
  }

  /** Equal consecutive velocities give zero acceleration. */
  lemma StillAt(history: seq<Detection>, vs: seq<Point>, i: nat)
    requires ConsecutiveTimesDiffer(history) && |vs| == |history| - 1 && i < |history| - 2
    requires vs[i] == vs[i + 1]
    ensures Accelerations(history, vs)[i] == Point(0.0, 0.0)
  {
  }

  /** One uniform step: `((s + v * t1) - (s + v * t0)) / (t1 - t0) == v`. */
  lemma UniformStep(s: real, v: real, t0: real, t1: real)
    requires t0 != t1
    ensures ((s + v * t1) - (s + v * t0)) / (t1 - t0) == v
  {
    assert (s + v * t1) - (s + v * t0) == v * (t1 - t0);
  }
}

=== FILE: wrappers.dfy ===
/** The optional value used wherever the source returns `None`/`null`
    or a key may be absent. */
module Wrappers {

  datatype Option<+T> = None | Some(value: T) {

    /** The carried value, or `default` when there is none. */
    function GetOr(default: T): T {
      match this
      case Some(v) => v
      case None => default
    }
  }
}
